=== FILE: README.md ===
# Mapgen registration layer — a Dafny model

This project models the registration and validation logic of Minetest's
mapgen scripting API (`src/script/lua_api/l_mapgen.cpp`): how a mod's
`minetest.register_biome`, `register_ore` and `register_decoration` tables
become records in the biome, ore and decoration managers, which node names
are queued on the node resolver (with which fallback names and default
content ids, in which order, and on which failure paths), how
`set_mapgen_params` merges map generator flags, how `set_gen_notify` sets
the notification flags, how schematic replacement lists in both the old
`{{"x", "y"}}` and the new `{x = "y"}` form are normalised into one map,
and which defaults `place_schematic` and `create_schematic` apply to their
arguments.

Lua tables are modelled as already-parsed records whose fields are
`Option`s (None for nil). The three managers are append-only sequences
whose position is the record's id; their `add` is `Registry.Add`, which
takes the manager's own accept/refuse verdict as a parameter and returns
the `(u32)-1` sentinel on refusal. The ore and decoration managers'
`create` is likewise an opaque verdict (null or an object). The resolver is
modelled by its queue only: `Resolver.Pending` entries that name a slot (a
record and one of its content-id fields). Biomes and ores enqueue after
`add`, so their slots are named by registry id; decorations enqueue before
`add`, so their slots are named by the address of the decoration object
`create` returned. A deleted object's address may be returned again by a
later `create`; `Protocol.Alloc` models an allocator that never returns the
address of a live object and may return any other, freed ones included.

Modules:

- `Common` (`common.dfy`): `Option`, content ids `CONTENT_AIR` (126) and
  `CONTENT_IGNORE` (127), the `u8`/`s16`/`u64` conversions the file applies,
  floats as opaque bit patterns.
- `Enums` (`enums.dfy`): the `es_*` tables, `string_to_enum`, `getenumfield`.
- `Flags` (`flags.dfy`): 32-bit flag words and the mask merge.
- `Registry` (`registry.dfy`): `add` and `getByName`.
- `Resolver` (`resolver.dfy`): `addNode` and `addNodeList`.
- `Replacements` (`replacements.dfy`): `read_schematic_replacements`.
- `Mapgen` (`mapgen.dfy`): the API entry points over a `Session`.
- `Protocol` (`protocol.dfy`): properties of whole call sequences.

The order of enqueueing differs between the entry points.
`register_biome` and `register_ore` enqueue their node names only after a
successful `add`. `register_decoration` enqueues its `place_on` names
before the type-specific checks and before `add`, and the simple reader's
names before `add`; when the decoration is then rejected, the object is
deleted but its entries stay queued. `Mapgen.RegisterDecoration` models
that order as written; `Mapgen.RegisterDecorationDeferred` defers the
entries until `add` succeeded, and the session properties in `Protocol`
are stated over that corrected order (see "## Findings").

## Model

| member | source | states |
|---|---|---|
| `Common.ToU8` | src/script/lua_api/l_mapgen.cpp:521 | the `(u8)` cast of `ore_param2` yields a byte congruent to the input modulo 256, equal to it when it already fits |
| `Common.ToS16` | src/script/lua_api/l_mapgen.cpp:596 | the `s16` slice y position is the input wrapped into [-32768, 32767], unchanged when in range |
| `Common.ToU64` | src/script/lua_api/l_mapgen.cpp:242-244 | the seed is stored modulo 2^64, unchanged when in range; the `u64` width of `params.seed` is an assumed field type (line 244 assigns without a cast) |
| `Enums.StringToEnum` | src/script/lua_api/l_mapgen.cpp:634-636 | lookup finds nothing exactly when no table entry has that name; a found value is listed under that name |
| `Enums.EnumToString` | src/script/lua_api/l_mapgen.cpp:39-84 | a value has no name exactly when it is not listed; a returned name is listed with that value |
| `Enums.LookupOfListedName` | src/script/lua_api/l_mapgen.cpp:39-84 | in a table without repeated names every listed name reads back as its own value |
| `Enums.NameRoundTrip` | src/script/lua_api/l_mapgen.cpp:39-84 | a value's printed name reads back as the value |
| `Enums.EnumField` | src/script/lua_api/l_mapgen.cpp:315-316 | `getenumfield` returns the listed value for a known name and the caller's default for a missing or unknown one |
| `Enums.BiomeTerrainTypesBijective` | src/script/lua_api/l_mapgen.cpp:39-47 | the biome type table has distinct names, no empty name, and names every biome type |
| `Enums.DecorationTypesBijective` | src/script/lua_api/l_mapgen.cpp:49-55 | the decoration type table has distinct names, no empty name, and names every type |
| `Enums.MapgenObjectsBijective` | src/script/lua_api/l_mapgen.cpp:57-66 | the mapgen object table has distinct names, no empty name, and names every object kind |
| `Enums.OreTypesBijective` | src/script/lua_api/l_mapgen.cpp:68-74 | the ore type table has distinct names, no empty name, and names every ore type |
| `Enums.RotationsBijective` | src/script/lua_api/l_mapgen.cpp:76-84 | the rotation table has distinct names, no empty name, and names every rotation |
| `Flags.Merge` | src/script/lua_api/l_mapgen.cpp:258-261 | after the merge, the bits inside the mask are exactly the specification's bits |
| `Flags.MergeOutsideMask` | src/script/lua_api/l_mapgen.cpp:258-261 | bits outside the mask keep their old value unless the specification sets them |
| `Flags.MergeSplitsOnMask` | src/script/lua_api/l_mapgen.cpp:258-261 | for a specification that sets only masked bits, `new = (old & ~mask) \| flags` splits exactly into old bits outside and new bits inside the mask |
| `Flags.MergeIdempotent` | src/script/lua_api/l_mapgen.cpp:258-261 | merging the same specification twice equals merging it once |
| `Flags.MergeEmptyIsIdentity` | src/script/lua_api/l_mapgen.cpp:258-261 | a specification that mentions no flag leaves the word unchanged |
| `Flags.ClearBits` | src/script/lua_api/l_mapgen.cpp:250-253 | the deprecated `flagmask` field clears every bit it lists |
| `Flags.ClearBitsKeepsOthers` | src/script/lua_api/l_mapgen.cpp:250-253 | clearing the `flagmask` bits touches no other bit |
| `Registry.Add` | src/script/lua_api/l_mapgen.cpp:328-332 | `add` returns the sentinel exactly when the manager refuses or the id space is exhausted, and then stores nothing; otherwise the new id is the registry size, the record is stored under it and earlier records are untouched |
| `Registry.AddIdsIncrease` | src/script/lua_api/l_mapgen.cpp:544-548 | two successive successful adds return strictly increasing ids |
| `Registry.RefusedAddConsumesNoId` | src/script/lua_api/l_mapgen.cpp:423-427 | after a refused add the next add behaves as if the refused one never happened |
| `Registry.FindByName` | src/script/lua_api/l_mapgen.cpp:398 | `getByName` finds the first record with the name, and finds nothing exactly when no record has it |
| `Resolver.AddNode` | src/script/lua_api/l_mapgen.cpp:335-336 | `addNode` appends one scalar entry with the given name, fallback, default and slot, keeping the queue before it |
| `Resolver.ListEntries` | src/script/lua_api/l_mapgen.cpp:386-387 | one list entry per name, every one aimed at the given slot |
| `Resolver.AddNodeLists` | src/script/lua_api/l_mapgen.cpp:386-387 | a loop of `addNodeList` calls appends one list entry per name, in input order, after the existing queue |
| `Replacements.Normalize` | src/script/lua_api/l_mapgen.cpp:87-111 | the replacement map has exactly the named sources as keys, each mapped to the target of the last entry naming it |
| `Replacements.NormalizeStep` | src/script/lua_api/l_mapgen.cpp:108 | overwriting one more source in the normal form of a prefix gives the normal form of the longer list |
| `Replacements.FormatsAgree` | src/script/lua_api/l_mapgen.cpp:95-106 | the old pair format and the new key format give the same map for the same pairs |
| `Replacements.NormalizeStable` | src/script/lua_api/l_mapgen.cpp:108 | an entry that repeats a mapping already present leaves the map unchanged |
| `Mapgen.MakeBiome` | src/script/lua_api/l_mapgen.cpp:315-326 | biome defaults: depth_top 1, depth_filler 3, heights 0; the type is the listed value of its name and "normal" for a missing or unknown name; heat and humidity points are the given values or 0.0; flags always 0; given fields override |
| `Mapgen.BiomeResolutions` | src/script/lua_api/l_mapgen.cpp:335-344 | five entries, all aimed at fields of the biome with the given id |
| `Mapgen.EnqueueBiomeNodes` | src/script/lua_api/l_mapgen.cpp:335-344 | the five `addNode` calls queue top/`mapgen_dirt_with_grass`/air, filler/`mapgen_dirt`/air, water/`mapgen_water_source`/air, dust/`air`/ignore, dust_water/`mapgen_water_source`/ignore, in that order |
| `Mapgen.RegisterBiome` | src/script/lua_api/l_mapgen.cpp:307-350 | a refused `add` leaves the session unchanged and returns no id; a successful one returns the next id, stores the record and queues exactly the five biome entries, changing nothing else |
| `Mapgen.MakeOre` | src/script/lua_api/l_mapgen.cpp:512-538 | ore defaults: scarcity 1, ore count 1, size and heights 0; the name is the `name` field or "", the noise parameters and noise threshold (0 when absent) are copied; the type is the listed value of its name and "scatter" for a missing or unknown name; `ore_param2` is truncated to a byte; flags are the flag field's bits, 0 when absent |
| `Mapgen.OreResolutions` | src/script/lua_api/l_mapgen.cpp:550-556 | the ore's entries all aim at fields of the ore with the given id |
| `Mapgen.RegisterOre` | src/script/lua_api/l_mapgen.cpp:504-560 | an id is returned exactly when `create` returned an ore, scarcity and ore count are positive and `add` succeeds; otherwise the session is unchanged (nothing added, nothing queued); on success the `wherein` names are queued in order, then one `ore` entry with fallback "" and default air |
| `Mapgen.BiomeIds` | src/script/lua_api/l_mapgen.cpp:394-403 | the decoration's biome set is exactly the ids the biome registry finds for the listed names; unknown names are skipped |
| `Mapgen.SimpleEntries` | src/script/lua_api/l_mapgen.cpp:464-467 | the simple decoration's entries all aim at fields of its decoration object |
| `Mapgen.RegDecoSimple` | src/script/lua_api/l_mapgen.cpp:433-470 | succeeds exactly when height > 0, the decoration list is non-empty, and spawn_by is non-empty whenever num_spawn_by is not -1; on failure nothing is queued, on success the decoration names then the spawn_by names |
| `Mapgen.ReplacementMap` | src/script/lua_api/l_mapgen.cpp:483-487 | a non-table field gives the empty map, a table its normal form |
| `Mapgen.RegDecoSchematic` | src/script/lua_api/l_mapgen.cpp:472-501 | succeeds exactly when the schematic loads with the normalised replacements; flags default to 0; the rotation is the listed value of its name and 0 degrees for a missing or unknown one |
| `Mapgen.TypeSpecific` | src/script/lua_api/l_mapgen.cpp:405-416 | the kind is the one the type's checks accept (valid simple decoration, loading schematic, never `lsystem`); only a valid simple decoration queues entries |
| `Mapgen.DecoTypeOf` | src/script/lua_api/l_mapgen.cpp:363-366 | a missing `deco_type` selects no type; the three names select their types; no type is selected exactly when the name is none of the listed ones |
| `Mapgen.RegisterDecoration` | src/script/lua_api/l_mapgen.cpp:353-431 | as written: an unknown type, a null `create` or sidelen <= 0 leave the session unchanged; an id is returned exactly when the type-specific checks accept, `add` admits and the id space is not exhausted, and then the stored record has the object address, name, fill ratio 0.02 by default, sidelen 8 by default, the found biome ids and the accepted kind; once past the sidelen check the `place_on` entries and then the simple entries are queued, whatever the outcome |
| `Mapgen.DecoEntries` | src/script/lua_api/l_mapgen.cpp:383-387 | every entry a decoration queues aims at a field of its own object |
| `Mapgen.RegisterDecorationDeferred` | src/script/lua_api/l_mapgen.cpp:383-427 | corrected order: the same id as as written; no id leaves the session unchanged; an id stores the same record, keeps the queue before it and queues exactly the entries the as-written order would queue, in the same order, all aimed at the registered decoration |
| `Mapgen.ClearedBy` | src/script/lua_api/l_mapgen.cpp:250-253 | the word with the `flagmask` bits cleared, or unchanged when the field is absent |
| `Mapgen.MergeCleared` | src/script/lua_api/l_mapgen.cpp:250-261 | the masked bits are the specification's; for a well-formed specification every other bit is the cleared word's |
| `Mapgen.ParamFlags` | src/script/lua_api/l_mapgen.cpp:250-261 | no flag field leaves the flags unchanged; a `flags` field sets the masked bits to its flags; a deprecated `flagmask` alone clears exactly its bits |
| `Mapgen.ParamFlagsKeepsOutside` | src/script/lua_api/l_mapgen.cpp:250-261 | with a well-formed `flags` field, each bit outside its mask is the old bit with the `flagmask` bits cleared |
| `Flags.MergeKeepsOutside` | src/script/lua_api/l_mapgen.cpp:258-261 | merging a well-formed flag field keeps every bit outside its mask |
| `Mapgen.DeprecatedFlagmaskClears` | src/script/lua_api/l_mapgen.cpp:250-256 | the deprecated `flagmask` field alone clears its bits and keeps all others |
| `Mapgen.UpdateParams` | src/script/lua_api/l_mapgen.cpp:224-264 | a non-table argument changes nothing; `mgname` replaces the name and drops the generator-specific parameters; absent fields keep their values; a given seed is stored as its `u64` truncation and a given water level as its `s16` truncation, under assumed widths |
| `Mapgen.SetMapgenParams` | src/script/lua_api/l_mapgen.cpp:224-227 | only the map generator parameters change, and they become exactly the update of the old parameters by the argument; a non-table argument changes nothing |
| `Mapgen.SetGenNotify` | src/script/lua_api/l_mapgen.cpp:294-304 | a readable flag argument replaces the notification flags (no merge); otherwise nothing changes |
| `Mapgen.PlaceSchematic` | src/script/lua_api/l_mapgen.cpp:623-657 | nothing is placed when loading fails; the call is made at the given position with flags 0; rotation defaults to 0 degrees (also for an unknown name), force placement defaults to true |
| `Mapgen.ProbList` | src/script/lua_api/l_mapgen.cpp:574-589 | only table elements contribute (none when there are none); for a list of tables, element k keeps its position and its probability as a byte, 255 when absent; the list of a concatenation is the concatenation (with `ProbListAppend`) |
| `Mapgen.ProbListAppend` | src/script/lua_api/l_mapgen.cpp:574-589 | the point list of a concatenation of arguments is the concatenation of their point lists |
| `Mapgen.SliceList` | src/script/lua_api/l_mapgen.cpp:591-603 | only table elements contribute; for a list of tables, element k has its y position as `s16`, 0 when absent, and its probability as a byte, 255 when absent |
| `Mapgen.SliceListAppend` | src/script/lua_api/l_mapgen.cpp:591-603 | the slice list of a concatenation of arguments is the concatenation of their slice lists |
| `Mapgen.SortBox` | src/script/lua_api/l_mapgen.cpp:570-572 | the corners are ordered per coordinate and each coordinate pair is the input pair, possibly swapped |
| `Mapgen.SortBoxCanonical` | src/script/lua_api/l_mapgen.cpp:570-572 | the box does not depend on the order of the corners, an ordered box is kept, and sorting twice is sorting once |
| `Mapgen.CreateSchematic` | src/script/lua_api/l_mapgen.cpp:563-620 | a save happens exactly when the box was captured; the saved box is the sorted box of the two corners, the lists are the point and slice lists of the arguments, empty when they are not tables |
| `Protocol.Alloc` | src/script/lua_api/l_mapgen.cpp:366 | `create` never returns the address of a live decoration and may return any other address, a freed one included |
| `Protocol.SlotValidMonotone` | src/script/lua_api/l_mapgen.cpp:328-344 | a slot of a registered record stays valid as the registries grow at their end |
| `Protocol.RegisterBiomePreservesValid` | src/script/lua_api/l_mapgen.cpp:328-344 | `register_biome` keeps every queued entry aimed at an existing record |
| `Protocol.RegisterOrePreservesValid` | src/script/lua_api/l_mapgen.cpp:544-556 | `register_ore` keeps every queued entry aimed at a registered record |
| `Protocol.RegisterDecorationPreservesValid` | src/script/lua_api/l_mapgen.cpp:383-430 | with resolutions deferred until `add` succeeded and an object address no registered decoration holds, every queued entry stays aimed at a registered record and decoration addresses stay distinct |
| `Protocol.StepPreservesValid` | src/script/lua_api/l_mapgen.cpp:659-673 | every entry point that changes the session (decorations in the corrected order) keeps every queued entry aimed at a registered biome, ore or decoration |
| `Protocol.StepAppendOnly` | src/script/lua_api/l_mapgen.cpp:659-673 | every entry point, with decorations registered in the corrected order, only appends to the registries and the queue |
| `Protocol.RunPreservesValid` | src/script/lua_api/l_mapgen.cpp:328-332 | over any call sequence, with decorations registered in the corrected order, the invariant holds, ids are never reused or renumbered and queued entries never disappear |
| `Protocol.StepIdIsNext` | src/script/lua_api/l_mapgen.cpp:423-430 | with decorations registered in the corrected order, a returned id is the size of its registry before the call; a call returning nothing leaves all registries unchanged |
| `Protocol.AsWrittenDecorationAppendOnly` | src/script/lua_api/l_mapgen.cpp:383-430 | the as-written decoration registration also only appends, and an accepted decoration gets the next index |
| `Protocol.RejectedDecorationLeavesOrphans` | src/script/lua_api/l_mapgen.cpp:383-387 | as written, a decoration that passed the type and sidelen checks and is then rejected leaves its `place_on` entries queued for an object registered nowhere, so the invariant fails whenever `place_on` is non-empty |
| `Protocol.OrphanLandsInLaterDecoration` | src/script/lua_api/l_mapgen.cpp:366-387 | as written, a rejected decoration's `place_on` entry lands in the next decoration `create` places at the freed address (a rose decoration gets "default:dirt" it never listed); in the corrected order only the rose's own entry is queued |
| `Protocol.GrassBiomeScenario` | src/script/lua_api/l_mapgen.cpp:335-336 | a biome with top node "grass" queues "grass" with fallback `mapgen_dirt_with_grass` and default air for its top slot |
| `Protocol.OreDefaultsPass` | src/script/lua_api/l_mapgen.cpp:522-536 | default scarcity and ore count pass validation; scarcity 0 is rejected without change |

## Left out

- Lua stack marshalling (`lua_next`, `getintfield_default`, `getstringlistfield`, `luaL_checktype`, userdata): inputs are parsed records; a non-table registration argument raises a Lua error before any of the modelled logic runs.
- `l_get_mapgen_object` (lines 116-220): it copies generator arrays into Lua tables and creates VoxelManip userdata; only its name table `es_MapgenObject` is modelled.
- `l_set_noiseparam_defaults`: it writes global settings through string serialisation.
- Float fields (heat and humidity points, fill ratio, noise threshold) and noise parameters are carried as opaque values.
- The managers' internals and `getByName` storage: `add`'s verdict and the ore and decoration managers' `create` verdict are parameters; for an unknown `deco_type` (the value -1) `create` is taken to return null, as the error message at line 368 says.
- The resolver's flush (lookup, fallback, default): only the enqueue side is modelled.
- `get_schematic`, `getSchematicFromMap`, `applyProbabilities`, `saveSchematicToFile`, `placeStructure` and `sortBoxVerticies`' own code are not part of this model: loading is a function parameter, capture a boolean, and placement and saving are returned as the call that would be made (placement with its constant flags argument 0). `SortBox` assumes the per-coordinate min/max behaviour the name describes.
- The flag string and table parsing (`readFlagString`, `read_flags`) is not part of this model: a flag field arrives as its parsed flags and mask.
- The C widths of record fields declared in headers not shown (depths, heights, scarcity and so on) are modelled as unbounded integers; only the casts written in this file (`(u8)` of `ore_param2`, the `u8` probabilities and the `s16` slice position) are certain. The `u64` seed and the `s16` water level (lines 244 and 248 assign without a cast) are assumed widths of `MapgenParams` fields, whose header is not part of this model.
- Mapgen.RegisterOre: the widths of `clust_scarcity` and `clust_num_ores` are not visible here; if either is unsigned, the `<= 0` check at line 531 rejects only 0, and a negative Lua value wraps and passes, whereas `OreValid` rejects every non-positive value.
- `CONTENT_AIR` and `CONTENT_IGNORE` take the values of mapnode.h of the same revision, which is not part of this model.
- `register_biome` does not check `create` for null; that path is not modelled (the biome manager is taken to create every biome type).
- Log messages (`errorstream`, `verbosestream`, `actionstream`).
- Addresses are modelled per kind of object: a freed decoration address taken by a later biome or ore object (where an orphaned entry would then write) is not modelled; `Protocol.Alloc` only keeps clear of the addresses of registered decorations.

## Findings

| source | as written | input that shows it | evidently intended | confidence | as-written member | corrected member |
|---|---|---|---|---|---|---|
| src/script/lua_api/l_mapgen.cpp:383-427 | `register_decoration` hands the resolver pointers into the decoration object (`place_on`, and the simple reader's lists) before the type-specific checks and `add`, then deletes the object on rejection; the entries stay queued and point into freed memory, which the next `create` can hand out again | a simple decoration with `height = 0` and `place_on = {"default:dirt"}`, then a valid one (`decoration = {"flowers:rose"}`, no `place_on`) created at the freed address: the rose's `place_on` list receives "default:dirt" | queue the resolutions only after `add` succeeded, as `register_biome` (lines 328-334) and `register_ore` do | medium, not executed | `Mapgen.RegisterDecoration`, `Protocol.OrphanLandsInLaterDecoration` | `Mapgen.RegisterDecorationDeferred`, `Protocol.RegisterDecorationPreservesValid` |

=== FILE: common.dfy ===
/** Shared vocabulary of the mapgen registration layer: optional values,
    content ids, fixed-width integer conversions and opaque payloads that
    the layer only carries around. */
module Common {

  /** An optional value: a Lua table field that may be nil, or a pointer a
      manager hands back that may be null. */
  datatype Option<+T> = None | Some(value: T) {
    /** The value, or `default` when absent (the `get*field_default` idiom). */
    function GetOr(default: T): T {
      match this
      case Some(v) => v
      case None => default
    }
  }

  /** A node content id as used by the voxel storage engine. */
  type ContentId = nat

  /** Content id of air (mapnode.h of the same revision; not part of this model). */
  const CONTENT_AIR: ContentId := 126
  /** Content id of the "ignore" placeholder node. */
  const CONTENT_IGNORE: ContentId := 127

  /** Probability byte meaning "always place" in a schematic. */
  const MTSCHEM_PROB_ALWAYS: int := 0xFF

  const U8_MOD: int := 0x100
  const U16_MOD: int := 0x1_0000
  const U64_MOD: int := 0x1_0000_0000_0000_0000

  /** C conversion of an integer to `u8`: reduction modulo 2^8. */
  function ToU8(x: int): (r: int)
    ensures 0 <= r < U8_MOD
    ensures (r - x) % U8_MOD == 0
    ensures 0 <= x < U8_MOD ==> r == x
  {
    x % U8_MOD
  }

  /** C conversion of an integer to `u64`: reduction modulo 2^64. */
  function ToU64(x: int): (r: int)
    ensures 0 <= r < U64_MOD
    ensures (r - x) % U64_MOD == 0
    ensures 0 <= x < U64_MOD ==> r == x
  {
    x % U64_MOD
  }

  /** C conversion of an integer to `s16` (two's complement wrap-around). */
  function ToS16(x: int): (r: int)
    ensures -0x8000 <= r < 0x8000
    ensures (r - x) % U16_MOD == 0
    ensures -0x8000 <= x < 0x8000 ==> r == x
  {
    var m := x % U16_MOD;
    if m < 0x8000 then m else m - U16_MOD
  }

  /** A single-precision float, carried only as its IEEE-754 bit pattern;
      no arithmetic is ever performed on it here. */
  datatype Float = Float(bits: bv32)

  /** 0.0f */
  const FLOAT_ZERO: Float := Float(0x0000_0000)
  /** 0.02f, the default decoration fill ratio. */
  const FLOAT_0_02: Float := Float(0x3CA3_D70A)

  /** Noise parameters read by the marshalling layer; opaque here. */
  datatype NoiseParams = NoiseParams(fields: seq<Float>)

  /** A 3D integer position (`v3s16`). */
  datatype V3 = V3(x: int, y: int, z: int)
}

=== FILE: enums.dfy ===
/** The `es_*` string tables of the mapgen API and the `string_to_enum` /
    `getenumfield` lookups that read them. */
module Enums {
  import opened Common

  datatype BiomeType = BiomeNormal | BiomeLiquid | BiomeNether | BiomeAether | BiomeFlat
  datatype DecoType = DecoSimple | DecoSchematic | DecoLSystem
  datatype MapgenObject = ObjVoxelManip | ObjHeightmap | ObjBiomemap | ObjHeatmap | ObjHumidmap | ObjGenNotify
  datatype OreType = OreScatter | OreSheet | OreClaylike
  datatype Rotation = Rotate0 | Rotate90 | Rotate180 | Rotate270 | RotateRandom

  /** An enum table: pairs of a value and its script-facing name. */
  type EnumTable<T> = seq<(T, string)>

  const BiomeTerrainTypes: EnumTable<BiomeType> :=
    [(BiomeNormal, "normal"), (BiomeLiquid, "liquid"), (BiomeNether, "nether"),
     (BiomeAether, "aether"), (BiomeFlat, "flat")]

  const DecorationTypes: EnumTable<DecoType> :=
    [(DecoSimple, "simple"), (DecoSchematic, "schematic"), (DecoLSystem, "lsystem")]

  const MapgenObjects: EnumTable<MapgenObject> :=
    [(ObjVoxelManip, "voxelmanip"), (ObjHeightmap, "heightmap"), (ObjBiomemap, "biomemap"),
     (ObjHeatmap, "heatmap"), (ObjHumidmap, "humiditymap"), (ObjGenNotify, "gennotify")]

  const OreTypes: EnumTable<OreType> :=
    [(OreScatter, "scatter"), (OreSheet, "sheet"), (OreClaylike, "claylike")]

  const Rotations: EnumTable<Rotation> :=
    [(Rotate0, "0"), (Rotate90, "90"), (Rotate180, "180"), (Rotate270, "270"), (RotateRandom, "random")]

  /** No name occurs twice in the table. */
  predicate DistinctNames<T>(t: EnumTable<T>) {
    forall i, j :: 0 <= i < j < |t| ==> t[i].1 != t[j].1
  }

  /** `string_to_enum`: the value of the first entry named `s`, or None when
      no entry carries that name (the caller's variable is then left as is). */
  function StringToEnum<T>(t: EnumTable<T>, s: string): (r: Option<T>)
    ensures r.None? <==> forall i :: 0 <= i < |t| ==> t[i].1 != s
    ensures r.Some? ==> exists i :: 0 <= i < |t| && t[i] == (r.value, s)
  {
    if |t| == 0 then None
    else if t[0].1 == s then Some(t[0].0)
    else
      var r := StringToEnum(t[1..], s);
      assert forall i :: 1 <= i < |t| ==> t[i] == t[1..][i - 1];
      r
  }

  /** The name of the first entry carrying value `v`, if any. */
  function EnumToString<T(==)>(t: EnumTable<T>, v: T): (r: Option<string>)
    ensures r.None? <==> forall i :: 0 <= i < |t| ==> t[i].0 != v
    ensures r.Some? ==> exists i :: 0 <= i < |t| && t[i] == (v, r.value)
  {
    if |t| == 0 then None
    else if t[0].0 == v then Some(t[0].1)
    else
      var r := EnumToString(t[1..], v);
      assert forall i :: 1 <= i < |t| ==> t[i] == t[1..][i - 1];
      r
  }

  /** With distinct names every entry's name reads back as that entry's value. */
  lemma {:induction false} LookupOfListedName<T>(t: EnumTable<T>, i: nat)
    requires DistinctNames(t)
    requires i < |t|
    ensures StringToEnum(t, t[i].1) == Some(t[i].0)
  {
    if i > 0 {
      assert t[0].1 != t[i].1;
      assert t[1..][i - 1] == t[i];
      LookupOfListedName(t[1..], i - 1);
    }
  }

  /** Reading back the printed name of a value yields the value again. */
  lemma NameRoundTrip<T>(t: EnumTable<T>, v: T)
    requires DistinctNames(t)
    requires EnumToString(t, v).Some?
    ensures StringToEnum(t, EnumToString(t, v).value) == Some(v)
  {
    var i :| 0 <= i < |t| && t[i] == (v, EnumToString(t, v).value);
    LookupOfListedName(t, i);
  }

  /** `getenumfield`: a missing field reads as "", and a name not in the
      table leaves the default in place. */
  function EnumField<T>(t: EnumTable<T>, field: Option<string>, default: T): (r: T)
    ensures (exists i :: 0 <= i < |t| && t[i].1 == field.GetOr("")) ==> StringToEnum(t, field.GetOr("")) == Some(r)
    ensures (forall i :: 0 <= i < |t| ==> t[i].1 != field.GetOr("")) ==> r == default
  {
    match StringToEnum(t, field.GetOr(""))
    case Some(v) => v
    case None => default
  }

  /** A well-formed table: names are distinct, none of them is "" (so a
      missing field always selects the caller's default), and every value of
      the enum is listed and reads back from its name. */
  ghost predicate Bijective<T(!new)>(t: EnumTable<T>) {
    && DistinctNames(t)
    && StringToEnum(t, "").None?
    && forall v: T :: StringToEnum(t, EnumToString(t, v).GetOr("")) == Some(v)
  }

  lemma BiomeTerrainTypesBijective()
    ensures Bijective(BiomeTerrainTypes)
  {
    forall v: BiomeType
      ensures StringToEnum(BiomeTerrainTypes, EnumToString(BiomeTerrainTypes, v).GetOr("")) == Some(v)
    {
      assert BiomeTerrainTypes[match v case BiomeNormal => 0 case BiomeLiquid => 1 case BiomeNether => 2
        case BiomeAether => 3 case BiomeFlat => 4].0 == v;
      NameRoundTrip(BiomeTerrainTypes, v);
    }
  }

  lemma DecorationTypesBijective()
    ensures Bijective(DecorationTypes)
  {
    forall v: DecoType
      ensures StringToEnum(DecorationTypes, EnumToString(DecorationTypes, v).GetOr("")) == Some(v)
    {
      assert DecorationTypes[match v case DecoSimple => 0 case DecoSchematic => 1 case DecoLSystem => 2].0 == v;
      NameRoundTrip(DecorationTypes, v);
    }
  }

  lemma MapgenObjectsBijective()
    ensures Bijective(MapgenObjects)
  {
    forall v: MapgenObject
      ensures StringToEnum(MapgenObjects, EnumToString(MapgenObjects, v).GetOr("")) == Some(v)
    {
      assert MapgenObjects[match v case ObjVoxelManip => 0 case ObjHeightmap => 1 case ObjBiomemap => 2
        case ObjHeatmap => 3 case ObjHumidmap => 4 case ObjGenNotify => 5].0 == v;
      NameRoundTrip(MapgenObjects, v);
    }
  }

  lemma OreTypesBijective()
    ensures Bijective(OreTypes)
  {
    forall v: OreType
      ensures StringToEnum(OreTypes, EnumToString(OreTypes, v).GetOr("")) == Some(v)
    {
      assert OreTypes[match v case OreScatter => 0 case OreSheet => 1 case OreClaylike => 2].0 == v;
      NameRoundTrip(OreTypes, v);
    }
  }

  lemma RotationsBijective()
    ensures Bijective(Rotations)
  {
    forall v: Rotation
      ensures StringToEnum(Rotations, EnumToString(Rotations, v).GetOr("")) == Some(v)
    {
      assert Rotations[match v case Rotate0 => 0 case Rotate90 => 1 case Rotate180 => 2
        case Rotate270 => 3 case RotateRandom => 4].0 == v;
      NameRoundTrip(Rotations, v);
    }
  }
}

=== FILE: flags.dfy ===
/** 32-bit flag words and the way the mapgen API merges a parsed flag
    specification into an existing flag word. */
module Flags {

  /** A flag specification as the marshalling layer hands it over after
      reading a flag string or table: the bits to set (`flags`) and the bits
      the specification mentions at all, set or cleared (`mask`). */
  datatype FlagSpec = FlagSpec(flags: bv32, mask: bv32)

  /** The specification only sets bits it mentions (what a "foo,nobar"
      string always yields). */
  predicate WellFormed(f: FlagSpec) {
    f.flags & !f.mask == 0
  }

  /** `flags &= ~flagmask; flags |= flags'`: the mentioned bits take the new
      values, all other bits keep the old ones. */
  function Merge(word: bv32, f: FlagSpec): (r: bv32)
    ensures r & f.mask == f.flags & f.mask
  {
    (word & !f.mask) | f.flags
  }

  /** Bits outside the mask keep their old value unless the specification
      sets them anyway. */
  lemma MergeOutsideMask(word: bv32, f: FlagSpec)
    ensures Merge(word, f) & !f.mask == (word & !f.mask) | (f.flags & !f.mask)
  {
  }

  /** For a well-formed specification the merge is exactly "bits outside the
      mask from `word`, bits inside from `flags`". */
  lemma MergeSplitsOnMask(word: bv32, f: FlagSpec)
    requires WellFormed(f)
    ensures Merge(word, f) & !f.mask == word & !f.mask
    ensures Merge(word, f) & f.mask == f.flags
  {
  }

  /** The outside-mask half of `MergeSplitsOnMask`, for any specification
      that turns out to be well formed. */
  lemma MergeKeepsOutside(word: bv32, f: FlagSpec)
    ensures WellFormed(f) ==> Merge(word, f) & !f.mask == word & !f.mask
  {
  }

  /** Merging the same specification twice changes nothing more. */
  lemma MergeIdempotent(word: bv32, f: FlagSpec)
    ensures Merge(Merge(word, f), f) == Merge(word, f)
  {
  }

  /** A specification that mentions no bit leaves the word as it was. */
  lemma MergeEmptyIsIdentity(word: bv32)
    ensures Merge(word, FlagSpec(0, 0)) == word
  {
  }

  /** The deprecated `flagmask` field: clear the listed bits. */
  function ClearBits(word: bv32, bits: bv32): (r: bv32)
    ensures r & bits == 0
  {
    word & !bits
  }

  /** Clearing touches no bit outside `bits`. */
  lemma ClearBitsKeepsOthers(word: bv32, bits: bv32)
    ensures ClearBits(word, bits) & !bits == word & !bits
  {
  }
}

=== FILE: mapgen.dfy ===
/** The mapgen scripting API's registration and parameter entry points,
    over already-parsed argument tables and an explicit session state (the
    three feature registries, the resolver queue and the emerge manager's
    parameters). */
module Mapgen {
  import opened Common
  import opened Enums
  import opened Flags
  import opened Registry
  import opened Resolver
  import opened Replacements

  // ---------------------------------------------------------------------
  // Records
  // ---------------------------------------------------------------------

  datatype Biome = Biome(
    name: string,
    biomeType: BiomeType,
    depthTop: int,
    depthFiller: int,
    heightMin: int,
    heightMax: int,
    heatPoint: Float,
    humidityPoint: Float,
    flags: bv32)

  datatype Ore = Ore(
    oreType: OreType,
    name: string,
    oreParam2: int,
    clustScarcity: int,
    clustNumOres: int,
    clustSize: int,
    heightMin: int,
    heightMax: int,
    noiseThreshold: Float,
    np: Option<NoiseParams>,
    flags: bv32)

  /** Where a schematic comes from: a file name or an inline table. */
  datatype SchemSource = SchemFile(path: string) | SchemInline(token: nat)

  /** A loaded schematic, opaque here. */
  datatype SchemHandle = SchemHandle(token: nat)

  /** `get_schematic`: loads a schematic, applying the replacement map; the
      loader itself is not part of this model. */
  type SchemLoader = (Option<SchemSource>, map<string, string>) -> Option<SchemHandle>

  /** The type-specific part of a decoration. */
  datatype DecoKind =
    | SimpleDeco(height: int, heightMax: int, numSpawnBy: int)
    | SchematicDeco(flags: bv32, rotation: Rotation, schematic: SchemHandle)

  /** A decoration record. `addr` is the object `create` returned: the
      resolver is handed pointers into it before it has a registry id. */
  datatype Decoration = Decoration(
    addr: nat,
    name: string,
    fillRatio: Float,
    sidelen: int,
    np: Option<NoiseParams>,
    biomes: set<nat>,
    kind: DecoKind)

  /** The emerge manager's map generator parameters. `hasSpecific` stands
      for the generator-specific parameter block `sparams` being present.
      `seed` and `waterLevel` are kept in the widths `u64` and `s16`, which
      are assumed: the header declaring them is not part of this model. */
  datatype MapgenParams = MapgenParams(
    mgName: string,
    hasSpecific: bool,
    seed: int,
    waterLevel: int,
    flags: bv32)

  /** Everything the entry points read or change. */
  datatype Session = Session(
    biomes: Reg<Biome>,
    ores: Reg<Ore>,
    decos: Reg<Decoration>,
    pending: Queue,
    params: MapgenParams,
    genNotify: bv32)

  /** The state after a registration and the id pushed back to the script
      (None when the function returns nothing). */
  datatype Outcome = Outcome(s: Session, id: Option<nat>)

  // ---------------------------------------------------------------------
  // Parsed argument tables (a field is None when it is nil or absent)
  // ---------------------------------------------------------------------

  datatype BiomeDesc = BiomeDesc(
    biomeType: Option<string>,
    name: Option<string>,
    depthTop: Option<int>,
    depthFiller: Option<int>,
    heightMin: Option<int>,
    heightMax: Option<int>,
    heatPoint: Option<Float>,
    humidityPoint: Option<Float>,
    nodeTop: Option<string>,
    nodeFiller: Option<string>,
    nodeWater: Option<string>,
    nodeDust: Option<string>,
    nodeDustWater: Option<string>)

  datatype OreDesc = OreDesc(
    oreType: Option<string>,
    name: Option<string>,
    oreParam2: Option<int>,
    clustScarcity: Option<int>,
    clustNumOres: Option<int>,
    clustSize: Option<int>,
    heightMin: Option<int>,
    heightMax: Option<int>,
    noiseThreshold: Option<Float>,
    flags: Option<FlagSpec>,
    noiseParams: Option<NoiseParams>,
    wherein: seq<string>,
    ore: Option<string>)

  /** A decoration table. String-list fields are already read into lists
      (an absent field reads as the empty list); `replacements` is None when
      the field is not a table. */
  datatype DecoDesc = DecoDesc(
    decoType: Option<string>,
    name: Option<string>,
    fillRatio: Option<Float>,
    sidelen: Option<int>,
    placeOn: seq<string>,
    noiseParams: Option<NoiseParams>,
    biomes: seq<string>,
    height: Option<int>,
    heightMax: Option<int>,
    numSpawnBy: Option<int>,
    decoration: seq<string>,
    spawnBy: seq<string>,
    flags: Option<FlagSpec>,
    rotation: Option<string>,
    replacements: Option<seq<ReplEntry>>,
    schematic: Option<SchemSource>)

  // ---------------------------------------------------------------------
  // register_biome
  // ---------------------------------------------------------------------

  /** The five scalar resolutions of a registered biome, as
      (node name, fallback, default, field). */
  function BiomeNodes(d: BiomeDesc): seq<(string, string, ContentId, Field)> {
    [(d.nodeTop.GetOr(""), "mapgen_dirt_with_grass", CONTENT_AIR, CTop),
     (d.nodeFiller.GetOr(""), "mapgen_dirt", CONTENT_AIR, CFiller),
     (d.nodeWater.GetOr(""), "mapgen_water_source", CONTENT_AIR, CWater),
     (d.nodeDust.GetOr(""), "air", CONTENT_IGNORE, CDust),
     (d.nodeDustWater.GetOr(""), "mapgen_water_source", CONTENT_IGNORE, CDustWater)]
  }

  /** The scalar entries of `BiomeNodes`, aimed at the biome with id `id`. */
  function BiomeResolutions(d: BiomeDesc, id: nat): (r: Queue)
    ensures |r| == 5
    ensures forall k :: 0 <= k < 5 ==> r[k].SlotOf().owner == BiomeRec(id) && WellTyped(r[k].SlotOf())
  {
    seq(5, k requires 0 <= k < 5 =>
      var n := BiomeNodes(d)[k];
      NodeEntry(n.0, n.1, n.2, Slot(BiomeRec(id), n.3)))
  }

  /** The bits a flag field sets: its parsed flags, or none when absent. */
  function FlagField(f: Option<FlagSpec>): bv32 {
    match f case Some(spec) => spec.flags case None => 0
  }

  /** The biome record a table describes: `depth_top` 1, `depth_filler` 3,
      both heights 0, heat and humidity 0.0 and the terrain type "normal"
      unless given; the flags are reserved and always 0. */
  function MakeBiome(d: BiomeDesc): (b: Biome)
    ensures b.name == d.name.GetOr("")
    ensures b.depthTop == d.depthTop.GetOr(1) && b.depthFiller == d.depthFiller.GetOr(3)
    ensures b.heightMin == d.heightMin.GetOr(0) && b.heightMax == d.heightMax.GetOr(0)
    ensures b.heatPoint == d.heatPoint.GetOr(FLOAT_ZERO) && b.humidityPoint == d.humidityPoint.GetOr(FLOAT_ZERO)
    ensures b.flags == 0
    ensures StringToEnum(BiomeTerrainTypes, d.biomeType.GetOr("")).None? ==> b.biomeType == BiomeNormal
    ensures StringToEnum(BiomeTerrainTypes, d.biomeType.GetOr("")).Some? ==>
      b.biomeType == StringToEnum(BiomeTerrainTypes, d.biomeType.GetOr("")).value
    ensures d.biomeType.None? ==> b.biomeType == BiomeNormal
  {
    assert StringToEnum(BiomeTerrainTypes, "").None?;
    Biome(
      d.name.GetOr(""),
      EnumField(BiomeTerrainTypes, d.biomeType, BiomeNormal),
      d.depthTop.GetOr(1),
      d.depthFiller.GetOr(3),
      d.heightMin.GetOr(0),
      d.heightMax.GetOr(0),
      d.heatPoint.GetOr(FLOAT_ZERO),
      d.humidityPoint.GetOr(FLOAT_ZERO),
      0)
  }

  /** The five `addNode` calls of a registered biome, in source order. */
  function EnqueueBiomeNodes(q: Queue, d: BiomeDesc, id: nat): (r: Queue)
    ensures r == q + BiomeResolutions(d, id)
  {
    var q := AddNode(q, d.nodeTop.GetOr(""), "mapgen_dirt_with_grass", CONTENT_AIR, Slot(BiomeRec(id), CTop));
    var q := AddNode(q, d.nodeFiller.GetOr(""), "mapgen_dirt", CONTENT_AIR, Slot(BiomeRec(id), CFiller));
    var q := AddNode(q, d.nodeWater.GetOr(""), "mapgen_water_source", CONTENT_AIR, Slot(BiomeRec(id), CWater));
    var q := AddNode(q, d.nodeDust.GetOr(""), "air", CONTENT_IGNORE, Slot(BiomeRec(id), CDust));
    AddNode(q, d.nodeDustWater.GetOr(""), "mapgen_water_source", CONTENT_IGNORE, Slot(BiomeRec(id), CDustWater))
  }

  /** `register_biome`. `admit` is the biome manager's verdict on `add`.
      Only a successful `add` enqueues resolutions: five scalar entries, in
      the order top, filler, water, dust, dust_water; a refused biome leaves
      the session exactly as it was. */
  function RegisterBiome(s: Session, d: BiomeDesc, admit: bool): (r: Outcome)
    ensures r.id.None? <==> !(admit && |s.biomes| < INVALID_ID)
    ensures r.id.None? ==> r.s == s
    ensures r.id.Some? ==>
      && r.id.value == |s.biomes|
      && r.s.ores == s.ores && r.s.decos == s.decos
      && r.s.params == s.params && r.s.genNotify == s.genNotify
      && r.s.biomes == s.biomes + [MakeBiome(d)]
      && r.s.pending == s.pending + BiomeResolutions(d, r.id.value)
  {
    var added := Add(s.biomes, MakeBiome(d), admit);
    if added.id == INVALID_ID then Outcome(s, None)
    else
      var id := added.id;
      Outcome(s.(biomes := added.reg, pending := EnqueueBiomeNodes(s.pending, d, id)), Some(id))
  }

  // ---------------------------------------------------------------------
  // register_ore
  // ---------------------------------------------------------------------

  /** The ore passes validation: positive scarcity and ore count. */
  predicate OreValid(d: OreDesc) {
    d.clustScarcity.GetOr(1) > 0 && d.clustNumOres.GetOr(1) > 0
  }

  /** The ore record a table describes: scarcity and ore count 1, size and
      heights 0, `ore_param2` 0 and type "scatter" unless given; the
      parameter byte is the given integer truncated to 8 bits; the flags are
      the flag field's set bits, or none. */
  function MakeOre(d: OreDesc): (o: Ore)
    ensures o.clustScarcity == d.clustScarcity.GetOr(1) && o.clustNumOres == d.clustNumOres.GetOr(1)
    ensures o.clustSize == d.clustSize.GetOr(0)
    ensures o.heightMin == d.heightMin.GetOr(0) && o.heightMax == d.heightMax.GetOr(0)
    ensures 0 <= o.oreParam2 < U8_MOD && (o.oreParam2 - d.oreParam2.GetOr(0)) % U8_MOD == 0
    ensures d.flags.None? ==> o.flags == 0
    ensures d.flags.Some? ==> o.flags == d.flags.value.flags
    ensures o.name == d.name.GetOr("")
    ensures o.np == d.noiseParams && o.noiseThreshold == d.noiseThreshold.GetOr(FLOAT_ZERO)
    ensures StringToEnum(OreTypes, d.oreType.GetOr("")).None? ==> o.oreType == OreScatter
    ensures StringToEnum(OreTypes, d.oreType.GetOr("")).Some? ==>
      o.oreType == StringToEnum(OreTypes, d.oreType.GetOr("")).value
    ensures d.oreType.None? ==> o.oreType == OreScatter
  {
    assert StringToEnum(OreTypes, "").None?;
    Ore(
      EnumField(OreTypes, d.oreType, OreScatter),
      d.name.GetOr(""),
      ToU8(d.oreParam2.GetOr(0)),
      d.clustScarcity.GetOr(1),
      d.clustNumOres.GetOr(1),
      d.clustSize.GetOr(0),
      d.heightMin.GetOr(0),
      d.heightMax.GetOr(0),
      d.noiseThreshold.GetOr(FLOAT_ZERO),
      d.noiseParams,
      FlagField(d.flags))
  }

  /** The resolutions of a registered ore: each `wherein` name as a list
      entry in input order, then one scalar entry for the ore node with
      fallback "" and default air. */
  function OreResolutions(d: OreDesc, id: nat): (r: Queue)
    ensures |r| == |d.wherein| + 1
    ensures forall k :: 0 <= k < |r| ==> r[k].SlotOf().owner == OreRec(id) && WellTyped(r[k].SlotOf())
  {
    ListEntries(d.wherein, Slot(OreRec(id), CWherein)) +
    [NodeEntry(d.ore.GetOr(""), "", CONTENT_AIR, Slot(OreRec(id), COre))]
  }

  /** `register_ore`. `created` is whether the ore manager's `create`
      returned an object for the selected type (it returns null for a type
      it does not implement). Validation comes next and a rejected ore never
      reaches `add`; nothing is enqueued unless `add` succeeds. */
  function RegisterOre(s: Session, d: OreDesc, created: bool, admit: bool): (r: Outcome)
    ensures r.id.Some? <==> created && OreValid(d) && admit && |s.ores| < INVALID_ID
    ensures r.id.None? ==> r.s == s
    ensures r.id.Some? ==>
      && r.id.value == |s.ores|
      && r.s.biomes == s.biomes && r.s.decos == s.decos
      && r.s.params == s.params && r.s.genNotify == s.genNotify
      && r.s.ores == s.ores + [MakeOre(d)]
      && r.s.pending == s.pending + OreResolutions(d, r.id.value)
  {
    var scarcity := d.clustScarcity.GetOr(1);
    var numOres := d.clustNumOres.GetOr(1);
    if !created then Outcome(s, None)
    else if scarcity <= 0 || numOres <= 0 then Outcome(s, None)
    else
      var added := Add(s.ores, MakeOre(d), admit);
      if added.id == INVALID_ID then Outcome(s, None)
      else
        var id := added.id;
        var q := AddNodeLists(s.pending, d.wherein, Slot(OreRec(id), CWherein));
        var q := AddNode(q, d.ore.GetOr(""), "", CONTENT_AIR, Slot(OreRec(id), COre));
        Outcome(s.(ores := added.reg, pending := q), Some(id))
  }

  // ---------------------------------------------------------------------
  // register_decoration
  // ---------------------------------------------------------------------

  function BiomeName(b: Biome): string { b.name }

  /** The biome set of a decoration: the ids of the listed names that the
      biome registry finds; unknown names are skipped. */
  function BiomeIds(reg: Reg<Biome>, names: seq<string>): (r: set<nat>)
    ensures forall id :: id in r <==>
      exists i :: 0 <= i < |names| && FindByName(reg, BiomeName, names[i]) == Some(id)
    ensures forall id :: id in r ==> id < |reg|
    decreases |names|
  {
    if |names| == 0 then {}
    else
      var init := names[..|names| - 1];
      var prev := BiomeIds(reg, init);
      assert forall i :: 0 <= i < |init| ==> init[i] == names[i];
      match FindByName(reg, BiomeName, names[|names| - 1])
      case Some(id) => prev + {id}
      case None => prev
  }

  /** What a type-specific reader hands back: the decoration kind on
      success (None on failure) and the resolver queue afterwards. */
  datatype Specific = Specific(kind: Option<DecoKind>, pending: Queue)

  /** The checks of `regDecoSimple`, in source order. */
  predicate SimpleValid(d: DecoDesc) {
    && d.height.GetOr(1) > 0
    && |d.decoration| > 0
    && (d.numSpawnBy.GetOr(-1) != -1 ==> |d.spawnBy| > 0)
  }

  /** The entries a successful `regDecoSimple` adds: every decoration
      name, then every spawn_by name, each list in input order. */
  function SimpleEntries(d: DecoDesc, addr: nat): (r: Queue)
    ensures |r| == |d.decoration| + |d.spawnBy|
    ensures forall k :: 0 <= k < |r| ==> r[k].SlotOf().owner == DecoObj(addr) && WellTyped(r[k].SlotOf())
  {
    ListEntries(d.decoration, Slot(DecoObj(addr), CDecos)) +
    ListEntries(d.spawnBy, Slot(DecoObj(addr), CSpawnBy))
  }

  /** `regDecoSimple`: height defaults to 1, height_max to 0 and
      num_spawn_by to -1. On failure nothing is enqueued; on success the
      decoration names and then the spawn_by names are enqueued as list
      entries of the decoration object at `addr`. */
  function RegDecoSimple(q: Queue, d: DecoDesc, addr: nat): (r: Specific)
    ensures r.kind.Some? <==> SimpleValid(d)
    ensures r.pending == q + (if SimpleValid(d) then SimpleEntries(d, addr) else [])
    ensures r.kind.Some? ==>
      r.kind.value == SimpleDeco(d.height.GetOr(1), d.heightMax.GetOr(0), d.numSpawnBy.GetOr(-1))
  {
    var height := d.height.GetOr(1);
    var heightMax := d.heightMax.GetOr(0);
    var numSpawnBy := d.numSpawnBy.GetOr(-1);
    if height <= 0 then Specific(None, q)
    else if |d.decoration| == 0 then Specific(None, q)
    else if numSpawnBy != -1 && |d.spawnBy| == 0 then Specific(None, q)
    else
      var q1 := AddNodeLists(q, d.decoration, Slot(DecoObj(addr), CDecos));
      var q2 := AddNodeLists(q1, d.spawnBy, Slot(DecoObj(addr), CSpawnBy));
      Specific(Some(SimpleDeco(height, heightMax, numSpawnBy)), q2)
  }

  /** The replacement map a table field yields (empty when not a table). */
  function ReplacementMap(field: Option<seq<ReplEntry>>): (m: map<string, string>)
    ensures field.None? ==> m == map[]
    ensures field.Some? ==> IsNormalForm(field.value, m)
  {
    match field
    case Some(es) => Normalize(es)
    case None => map[]
  }

  /** `regDecoSchematic`: flags default to none, rotation to 0 degrees (an
      unknown name too), and the schematic is loaded with the normalised
      replacement map; the decoration fails exactly when loading fails. It
      enqueues nothing itself. */
  function RegDecoSchematic(d: DecoDesc, load: SchemLoader): (r: Option<DecoKind>)
    ensures r.Some? <==> load(d.schematic, ReplacementMap(d.replacements)).Some?
    ensures r.Some? ==>
      && r.value.SchematicDeco?
      && r.value.schematic == load(d.schematic, ReplacementMap(d.replacements)).value
      && (d.flags.None? ==> r.value.flags == 0)
      && (d.flags.Some? ==> r.value.flags == d.flags.value.flags)
      && (StringToEnum(Rotations, d.rotation.GetOr("")).None? ==> r.value.rotation == Rotate0)
      && (StringToEnum(Rotations, d.rotation.GetOr("")).Some? ==>
            r.value.rotation == StringToEnum(Rotations, d.rotation.GetOr("")).value)
  {
    var flags := FlagField(d.flags);
    var rotation := EnumField(Rotations, d.rotation, Rotate0);
    match load(d.schematic, ReplacementMap(d.replacements))
    case Some(h) => Some(SchematicDeco(flags, rotation, h))
    case None => None
  }

  /** The decoration kind the type-specific checks accept, independent of
      the resolver queue: a valid simple decoration, a schematic that
      loads, and never an `lsystem` one. */
  function KindOf(t: DecoType, d: DecoDesc, load: SchemLoader): Option<DecoKind> {
    match t
    case DecoSimple =>
      if SimpleValid(d) then Some(SimpleDeco(d.height.GetOr(1), d.heightMax.GetOr(0), d.numSpawnBy.GetOr(-1)))
      else None
    case DecoSchematic => RegDecoSchematic(d, load)
    case DecoLSystem => None
  }

  /** The switch over the decoration type: the simple and schematic readers,
      and `lsystem`, which no reader accepts. Entries are only ever added
      after the queue it is given. */
  function TypeSpecific(t: DecoType, q: Queue, d: DecoDesc, addr: nat, load: SchemLoader): (r: Specific)
    ensures r.pending == q + (if t == DecoSimple && SimpleValid(d) then SimpleEntries(d, addr) else [])
    ensures r.kind == KindOf(t, d, load)
  {
    match t
    case DecoSimple => RegDecoSimple(q, d, addr)
    case DecoSchematic => Specific(RegDecoSchematic(d, load), q)
    case DecoLSystem => Specific(None, q)
  }

  /** The decoration type the table selects; None for a missing or unknown
      `deco_type` (for which `create` returns null). */
  function DecoTypeOf(d: DecoDesc): (r: Option<DecoType>)
    ensures r.None? <==> forall i :: 0 <= i < |DecorationTypes| ==> DecorationTypes[i].1 != d.decoType.GetOr("")
    ensures d.decoType.None? ==> r.None?
    ensures d.decoType == Some("simple") ==> r == Some(DecoSimple)
    ensures d.decoType == Some("schematic") ==> r == Some(DecoSchematic)
    ensures d.decoType == Some("lsystem") ==> r == Some(DecoLSystem)
  {
    StringToEnum(DecorationTypes, d.decoType.GetOr(""))
  }

  /** The entries a decoration at `addr` queues once it passed the type and
      sidelen checks: its `place_on` names, then the simple reader's. */
  function DecoEntries(d: DecoDesc, t: DecoType, addr: nat): (r: Queue)
    ensures forall k :: 0 <= k < |r| ==> r[k].SlotOf().owner == DecoObj(addr) && WellTyped(r[k].SlotOf())
  {
    ListEntries(d.placeOn, Slot(DecoObj(addr), CPlaceOn)) +
    (if t == DecoSimple && SimpleValid(d) then SimpleEntries(d, addr) else [])
  }

  /** `register_decoration` as written. `obj` is what the decoration
      manager's `create` returned for the selected type (None for null); an
      unknown type never gets an object. A non-positive sidelen deletes the
      object before anything is enqueued. Otherwise the `place_on` names
      are enqueued first, before the type-specific checks and before `add`,
      and stay pending whatever happens later; the simple reader's entries
      also stay pending when `add` then refuses the decoration. */
  function RegisterDecoration(s: Session, d: DecoDesc, obj: Option<nat>, admit: bool, load: SchemLoader): (r: Outcome)
    ensures r.s.biomes == s.biomes && r.s.ores == s.ores
    ensures r.s.params == s.params && r.s.genNotify == s.genNotify
    ensures DecoTypeOf(d).None? || obj.None? || d.sidelen.GetOr(8) <= 0 ==> r == Outcome(s, None)
    ensures r.id.Some? <==>
      && DecoTypeOf(d).Some? && obj.Some? && d.sidelen.GetOr(8) > 0
      && KindOf(DecoTypeOf(d).value, d, load).Some?
      && admit && |s.decos| < INVALID_ID
    ensures r.id.None? ==> r.s.decos == s.decos
    ensures r.id.Some? ==>
      && r.id.value == |s.decos|
      && r.s.decos == s.decos + [Decoration(obj.value, d.name.GetOr(""), d.fillRatio.GetOr(FLOAT_0_02),
                                            d.sidelen.GetOr(8), d.noiseParams, BiomeIds(s.biomes, d.biomes),
                                            KindOf(DecoTypeOf(d).value, d, load).value)]
    ensures DecoTypeOf(d).Some? && obj.Some? && d.sidelen.GetOr(8) > 0 ==>
      r.s.pending == s.pending + DecoEntries(d, DecoTypeOf(d).value, obj.value)
  {
    match DecoTypeOf(d)
    case None => Outcome(s, None)
    case Some(t) =>
      match obj
      case None => Outcome(s, None)
      case Some(addr) =>
        var sidelen := d.sidelen.GetOr(8);
        if sidelen <= 0 then Outcome(s, None)
        else
          var q := AddNodeLists(s.pending, d.placeOn, Slot(DecoObj(addr), CPlaceOn));
          var biomes := BiomeIds(s.biomes, d.biomes);
          var spec := TypeSpecific(t, q, d, addr, load);
          var s1 := s.(pending := spec.pending);
          match spec.kind
          case None => Outcome(s1, None)
          case Some(kind) =>
            var deco := Decoration(addr, d.name.GetOr(""), d.fillRatio.GetOr(FLOAT_0_02),
                                   sidelen, d.noiseParams, biomes, kind);
            var added := Add(s1.decos, deco, admit);
            if added.id == INVALID_ID then Outcome(s1, None)
            else Outcome(s1.(decos := added.reg), Some(added.id))
  }

  /** `register_decoration` with its resolutions deferred until `add` has
      succeeded, as `register_biome` and `register_ore` do: the same checks,
      the same record and the same entries in the same order, but a
      decoration that is not registered leaves the session untouched, so
      every entry it queues aims at the decoration it registered. */
  function RegisterDecorationDeferred(s: Session, d: DecoDesc, obj: Option<nat>, admit: bool,
                                      load: SchemLoader): (r: Outcome)
    ensures r.id == RegisterDecoration(s, d, obj, admit, load).id
    ensures r.id.Some? ==> r.s.pending == s.pending + DecoEntries(d, DecoTypeOf(d).value, obj.value)
    ensures r.id.None? ==> r.s == s
    ensures r.id.Some? ==>
      && r.s.biomes == s.biomes && r.s.ores == s.ores
      && r.s.params == s.params && r.s.genNotify == s.genNotify
      && r.s.decos == RegisterDecoration(s, d, obj, admit, load).s.decos
      && |s.pending| <= |r.s.pending| && r.s.pending[..|s.pending|] == s.pending
      && (forall k :: |s.pending| <= k < |r.s.pending| ==>
            r.s.pending[k].SlotOf().owner == DecoObj(r.s.decos[r.id.value].addr) &&
            WellTyped(r.s.pending[k].SlotOf()))
  {
    var o := RegisterDecoration(s, d, obj, admit, load);
    if o.id.Some? then
      assert o.s.pending == s.pending + DecoEntries(d, DecoTypeOf(d).value, obj.value);
      o
    else Outcome(s, None)
  }

  // ---------------------------------------------------------------------
  // set_mapgen_params / set_gen_notify
  // ---------------------------------------------------------------------

  /** The parsed argument of `set_mapgen_params` (when it is a table).
      `flagmask` is the deprecated field, already read as a flag word. */
  datatype MapgenParamsArg = MapgenParamsArg(
    mgName: Option<string>,
    seed: Option<int>,
    waterLevel: Option<int>,
    flagmask: Option<bv32>,
    flags: Option<FlagSpec>)

  /** The flag word after the deprecated `flagmask` field: its bits cleared,
      or the word itself when the field is absent. */
  function ClearedBy(word: bv32, flagmask: Option<bv32>): (w: bv32)
    ensures w == word & !flagmask.GetOr(0)
  {
    match flagmask
    case Some(m) => ClearBits(word, m)
    case None => word
  }

  /** A `flags` specification merged into the word the `flagmask` field
      left: the mentioned bits are the specification's, the others (for a
      well-formed specification) those of the cleared word. */
  function MergeCleared(word: bv32, flagmask: Option<bv32>, f: FlagSpec): (r: bv32)
    ensures r & f.mask == f.flags & f.mask
    ensures WellFormed(f) ==> r & !f.mask == word & !flagmask.GetOr(0) & !f.mask
  {
    var w := ClearedBy(word, flagmask);
    MergeKeepsOutside(w, f);
    Merge(w, f)
  }

  /** The flag word after `set_mapgen_params`: the deprecated `flagmask`
      clears its bits first, then a `flags` specification is merged in. */
  function ParamFlags(word: bv32, flagmask: Option<bv32>, flags: Option<FlagSpec>): (r: bv32)
    ensures flagmask.None? && flags.None? ==> r == word
    ensures flags.Some? ==> r & flags.value.mask == flags.value.flags & flags.value.mask
    ensures flags.None? && flagmask.Some? ==> r == ClearBits(word, flagmask.value)
  {
    match flags
    case Some(f) => MergeCleared(word, flagmask, f)
    case None => ClearedBy(word, flagmask)
  }

  /** With a well-formed `flags` field, a bit outside its mask ends up as the
      old word after the deprecated `flagmask` clearing: set only if it was set
      before and `flagmask` does not name it. */
  lemma ParamFlagsKeepsOutside(word: bv32, flagmask: Option<bv32>, f: FlagSpec)
    requires WellFormed(f)
    ensures ParamFlags(word, flagmask, Some(f)) & !f.mask == word & !flagmask.GetOr(0) & !f.mask
  {
    assert ParamFlags(word, flagmask, Some(f)) == MergeCleared(word, flagmask, f);
  }

  /** The deprecated `flagmask` field alone clears exactly its bits. */
  lemma DeprecatedFlagmaskClears(word: bv32, m: bv32)
    ensures ParamFlags(word, Some(m), None) & m == 0
    ensures ParamFlags(word, Some(m), None) & !m == word & !m
  {
    ClearBitsKeepsOthers(word, m);
  }

  /** The parameter update of `set_mapgen_params`; `arg` is None when the
      argument is not a table. */
  function UpdateParams(p: MapgenParams, arg: Option<MapgenParamsArg>): (r: MapgenParams)
    ensures arg.None? ==> r == p
    ensures arg.Some? ==>
      var a := arg.value;
      && r.mgName == a.mgName.GetOr(p.mgName)
      && r.hasSpecific == (p.hasSpecific && a.mgName.None?)
      && (a.seed.None? ==> r.seed == p.seed)
      && (a.seed.Some? ==> r.seed == ToU64(a.seed.value))
      && (a.seed.Some? ==> 0 <= r.seed < U64_MOD && (0 <= a.seed.value < U64_MOD ==> r.seed == a.seed.value))
      && (a.waterLevel.None? ==> r.waterLevel == p.waterLevel)
      && (a.waterLevel.Some? ==> r.waterLevel == ToS16(a.waterLevel.value))
      && (a.waterLevel.Some? ==> -0x8000 <= r.waterLevel < 0x8000)
      && (a.waterLevel.Some? && -0x8000 <= a.waterLevel.value < 0x8000 ==> r.waterLevel == a.waterLevel.value)
      && r.flags == ParamFlags(p.flags, a.flagmask, a.flags)
  {
    match arg
    case None => p
    case Some(a) =>
      MapgenParams(
        a.mgName.GetOr(p.mgName),
        p.hasSpecific && a.mgName.None?,
        if a.seed.Some? then ToU64(a.seed.value) else p.seed,
        if a.waterLevel.Some? then ToS16(a.waterLevel.value) else p.waterLevel,
        ParamFlags(p.flags, a.flagmask, a.flags))
  }

  /** `set_mapgen_params`: only the emerge parameters change. */
  function SetMapgenParams(s: Session, arg: Option<MapgenParamsArg>): (r: Session)
    ensures r == s.(params := r.params)
    ensures arg.None? ==> r == s
    ensures r.params == UpdateParams(s.params, arg)
    ensures arg.Some? && arg.value.mgName.Some? ==> !r.params.hasSpecific
  {
    s.(params := UpdateParams(s.params, arg))
  }

  /** `set_gen_notify`: a readable flag argument replaces the notification
      set outright (its mask is ignored, nothing is merged); otherwise
      nothing changes. */
  function SetGenNotify(s: Session, arg: Option<FlagSpec>): (r: Session)
    ensures r == s.(genNotify := r.genNotify)
    ensures arg.None? ==> r == s
    ensures arg.Some? ==> r.genNotify == arg.value.flags
  {
    match arg
    case Some(f) => s.(genNotify := f.flags)
    case None => s
  }

  // ---------------------------------------------------------------------
  // place_schematic / create_schematic argument handling
  // ---------------------------------------------------------------------

  /** The call `place_schematic` makes on the loaded schematic. */
  datatype PlaceCall = PlaceCall(pos: V3, schematic: SchemHandle, flags: bv32, rotation: Rotation, force: bool)

  /** `place_schematic(p, schematic, rotation, replacements, force_placement)`.
      `rotation` is None unless the argument is a string; `force` is None
      unless it is a boolean; `replacements` is None unless it is a table.
      Rotation defaults to 0 degrees (an unknown name too) and force
      placement defaults to true. Nothing is placed when loading fails. */
  function PlaceSchematic(pos: V3, schematic: Option<SchemSource>, rotation: Option<string>,
                          replacements: Option<seq<ReplEntry>>, force: Option<bool>,
                          load: SchemLoader): (r: Option<PlaceCall>)
    ensures r.None? <==> load(schematic, ReplacementMap(replacements)).None?
    ensures r.Some? ==>
      && r.value.pos == pos && r.value.flags == 0
      && r.value.schematic == load(schematic, ReplacementMap(replacements)).value
      && (rotation.None? ==> r.value.rotation == Rotate0)
      && (StringToEnum(Rotations, rotation.GetOr("")).Some? ==>
            r.value.rotation == StringToEnum(Rotations, rotation.GetOr("")).value)
      && (StringToEnum(Rotations, rotation.GetOr("")).None? ==> r.value.rotation == Rotate0)
      && r.value.force == force.GetOr(true)
  {
    var rot := EnumField(Rotations, rotation, Rotate0);
    var forcePlacement := match force case Some(b) => b case None => true;
    var replaceNames := ReplacementMap(replacements);
    match load(schematic, replaceNames)
    case None => None
    case Some(h) => Some(PlaceCall(pos, h, 0, rot, forcePlacement))
  }

  /** One element of the point-probability list: a table with `pos` and an
      optional `prob`, or anything else (skipped). */
  datatype ProbArg = PointProb(pos: V3, prob: Option<int>) | NotAPointTable

  /** One element of the slice-probability list: a table with optional
      `ypos` and `prob`, or anything else (skipped). */
  datatype SliceArg = SliceProb(ypos: Option<int>, prob: Option<int>) | NotASliceTable

  /** The point-probability list: table elements only, in order, each
      keeping its position, with the probability defaulting to "always"
      (255) and stored as a byte. */
  function ProbList(args: seq<ProbArg>): (r: seq<(V3, int)>)
    ensures |r| <= |args|
    ensures forall k :: 0 <= k < |r| ==> 0 <= r[k].1 < U8_MOD
    ensures (forall i :: 0 <= i < |args| ==> args[i].NotAPointTable?) ==> r == []
    ensures (forall i :: 0 <= i < |args| ==> args[i].PointProb?) ==>
      && |r| == |args|
      && forall k :: 0 <= k < |args| ==>
           && r[k].0 == args[k].pos
           && r[k].1 == ToU8(args[k].prob.GetOr(MTSCHEM_PROB_ALWAYS))
           && (args[k].prob.None? ==> r[k].1 == MTSCHEM_PROB_ALWAYS)
    decreases |args|
  {
    if |args| == 0 then []
    else
      var init := args[..|args| - 1];
      assert forall i :: 0 <= i < |init| ==> init[i] == args[i];
      var prev := ProbList(init);
      match args[|args| - 1]
      case PointProb(pos, prob) => prev + [(pos, ToU8(prob.GetOr(MTSCHEM_PROB_ALWAYS)))]
      case NotAPointTable => prev
  }

  /** The point list of a concatenation is the concatenation of the point
      lists: together with the one-element cases above this pins the list
      down completely. */
  lemma {:induction false} ProbListAppend(a: seq<ProbArg>, b: seq<ProbArg>)
    ensures ProbList(a + b) == ProbList(a) + ProbList(b)
    decreases |b|
  {
    if |b| == 0 {
      assert a + b == a;
    } else {
      var b' := b[..|b| - 1];
      assert (a + b)[..|a + b| - 1] == a + b';
      assert (a + b)[|a + b| - 1] == b[|b| - 1];
      ProbListAppend(a, b');
    }
  }

  /** The slice-probability list: table elements only, in order, with the
      y position defaulting to 0 as a 16-bit signed value and the
      probability defaulting to "always" (255) as a byte. */
  function SliceList(args: seq<SliceArg>): (r: seq<(int, int)>)
    ensures |r| <= |args|
    ensures forall k :: 0 <= k < |r| ==> -0x8000 <= r[k].0 < 0x8000 && 0 <= r[k].1 < U8_MOD
    ensures (forall i :: 0 <= i < |args| ==> args[i].NotASliceTable?) ==> r == []
    ensures (forall i :: 0 <= i < |args| ==> args[i].SliceProb?) ==>
      && |r| == |args|
      && forall k :: 0 <= k < |args| ==>
           && r[k].0 == ToS16(args[k].ypos.GetOr(0))
           && (args[k].ypos.None? ==> r[k].0 == 0)
           && r[k].1 == ToU8(args[k].prob.GetOr(MTSCHEM_PROB_ALWAYS))
           && (args[k].prob.None? ==> r[k].1 == MTSCHEM_PROB_ALWAYS)
    decreases |args|
  {
    if |args| == 0 then []
    else
      var init := args[..|args| - 1];
      assert forall i :: 0 <= i < |init| ==> init[i] == args[i];
      var prev := SliceList(init);
      match args[|args| - 1]
      case SliceProb(ypos, prob) => prev + [(ToS16(ypos.GetOr(0)), ToU8(prob.GetOr(MTSCHEM_PROB_ALWAYS)))]
      case NotASliceTable => prev
  }

  /** The slice list of a concatenation is the concatenation of the slice
      lists. */
  lemma {:induction false} SliceListAppend(a: seq<SliceArg>, b: seq<SliceArg>)
    ensures SliceList(a + b) == SliceList(a) + SliceList(b)
    decreases |b|
  {
    if |b| == 0 {
      assert a + b == a;
    } else {
      var b' := b[..|b| - 1];
      assert (a + b)[..|a + b| - 1] == a + b';
      assert (a + b)[|a + b| - 1] == b[|b| - 1];
      SliceListAppend(a, b');
    }
  }

  /** `sortBoxVerticies`: per coordinate, the smaller value goes to the
      first corner and the larger to the second. */
  function SortBox(p1: V3, p2: V3): (r: (V3, V3))
    ensures r.0.x <= r.1.x && r.0.y <= r.1.y && r.0.z <= r.1.z
    ensures (r.0.x, r.1.x) == (p1.x, p2.x) || (r.0.x, r.1.x) == (p2.x, p1.x)
    ensures (r.0.y, r.1.y) == (p1.y, p2.y) || (r.0.y, r.1.y) == (p2.y, p1.y)
    ensures (r.0.z, r.1.z) == (p1.z, p2.z) || (r.0.z, r.1.z) == (p2.z, p1.z)
  {
    (V3(if p1.x <= p2.x then p1.x else p2.x, if p1.y <= p2.y then p1.y else p2.y, if p1.z <= p2.z then p1.z else p2.z),
     V3(if p1.x <= p2.x then p2.x else p1.x, if p1.y <= p2.y then p2.y else p1.y, if p1.z <= p2.z then p2.z else p1.z))
  }

  /** The box does not depend on the order the corners are given in, and
      an already ordered box is kept as it is. */
  lemma SortBoxCanonical(p1: V3, p2: V3)
    ensures SortBox(p1, p2) == SortBox(p2, p1)
    ensures p1.x <= p2.x && p1.y <= p2.y && p1.z <= p2.z ==> SortBox(p1, p2) == (p1, p2)
    ensures SortBox(SortBox(p1, p2).0, SortBox(p1, p2).1) == SortBox(p1, p2)
  {
  }

  /** What `create_schematic` asks the schematic code to do after capturing
      the box: apply these probabilities relative to `p1` and save. */
  datatype SaveCall = SaveCall(p1: V3, p2: V3, probs: seq<(V3, int)>, slices: seq<(int, int)>, filename: string)

  /** `create_schematic(p1, p2, probability_list, filename, slice_prob_list)`.
      A list argument is None when it is not a table. `captured` is whether
      reading the box from the map succeeded; when it fails nothing is
      saved. */
  function CreateSchematic(p1: V3, p2: V3, probs: Option<seq<ProbArg>>, filename: string,
                           slices: Option<seq<SliceArg>>, captured: bool): (r: Option<SaveCall>)
    ensures r.Some? <==> captured
    ensures r.Some? ==>
      && r.value.p1.x <= r.value.p2.x && r.value.p1.y <= r.value.p2.y && r.value.p1.z <= r.value.p2.z
      && (r.value.p1, r.value.p2) == SortBox(p1, p2)
      && r.value.filename == filename
      && (probs.None? ==> r.value.probs == [])
      && (probs.Some? ==> r.value.probs == ProbList(probs.value))
      && (slices.None? ==> r.value.slices == [])
      && (slices.Some? ==> r.value.slices == SliceList(slices.value))
  {
    var box := SortBox(p1, p2);
    var probList := match probs case Some(a) => ProbList(a) case None => [];
    var sliceList := match slices case Some(a) => SliceList(a) case None => [];
    if !captured then None
    else Some(SaveCall(box.0, box.1, probList, sliceList, filename))
  }
}

=== FILE: protocol.dfy ===
/** Properties of a whole registration session: a sequence of entry-point
    calls starting from any well-formed state. Decoration objects live at
    addresses; a deleted object's address may be handed out again. */
module Protocol {
  import opened Common
  import opened Enums
  import opened Flags
  import opened Registry
  import opened Resolver
  import opened Replacements
  import opened Mapgen

  /** The addresses of the registered decoration objects. */
  function Addrs(ds: seq<Decoration>): set<nat> {
    set i | 0 <= i < |ds| :: ds[i].addr
  }

  /** An address no registered decoration exceeds. */
  function MaxAddr(ds: seq<Decoration>): (m: nat)
    ensures forall i :: 0 <= i < |ds| ==> ds[i].addr <= m
    decreases |ds|
  {
    if |ds| == 0 then 0
    else
      var m := MaxAddr(ds[..|ds| - 1]);
      assert forall i :: 0 <= i < |ds| - 1 ==> ds[..|ds| - 1][i] == ds[i];
      if ds[|ds| - 1].addr <= m then m else ds[|ds| - 1].addr
  }

  /** The address `create` gives a new decoration object: never one of a
      live (registered) object, and otherwise any address at all, freed ones
      included — `hint` selects which. */
  function Alloc(ds: seq<Decoration>, hint: nat): (a: nat)
    ensures a !in Addrs(ds)
    ensures hint !in Addrs(ds) ==> a == hint
  {
    if hint !in Addrs(ds) then hint
    else
      var m := MaxAddr(ds);
      assert forall i :: 0 <= i < |ds| ==> ds[i].addr != m + 1;
      m + 1
  }

  /** One call into the mapgen API, with the opaque verdicts of the
      managers it consults (`create` succeeding, `add` admitting) and the
      allocator's choice of address. */
  datatype Call =
    | BiomeCall(bd: BiomeDesc, admitBiome: bool)
    | OreCall(od: OreDesc, createdOre: bool, admitOre: bool)
    | DecoCall(dd: DecoDesc, createdDeco: bool, hint: nat, admitDeco: bool, load: SchemLoader)
    | ParamsCall(arg: Option<MapgenParamsArg>)
    | NotifyCall(flags: Option<FlagSpec>)

  /** The decoration object a call gets from `create`. */
  function DecoObject(s: Mapgen.Session, created: bool, hint: nat): Option<nat> {
    if created then Some(Alloc(s.decos, hint)) else None
  }

  /** One entry point, with decorations registered in the corrected order
      (resolutions deferred until `add` succeeded). */
  function Step(s: Mapgen.Session, c: Call): Outcome {
    match c
    case BiomeCall(d, a) => RegisterBiome(s, d, a)
    case OreCall(d, created, a) => RegisterOre(s, d, created, a)
    case DecoCall(d, created, hint, a, load) =>
      RegisterDecorationDeferred(s, d, DecoObject(s, created, hint), a, load)
    case ParamsCall(arg) => Outcome(SetMapgenParams(s, arg), None)
    case NotifyCall(f) => Outcome(SetGenNotify(s, f), None)
  }

  /** A slot names a field of a registered record: a biome or ore by id, a
      decoration by the address of a registered object. */
  predicate SlotValid(s: Mapgen.Session, slot: Slot) {
    && FieldOf(slot.owner, slot.field)
    && match slot.owner
       case BiomeRec(id) => id < |s.biomes|
       case OreRec(id) => id < |s.ores|
       case DecoObj(a) => a in Addrs(s.decos)
  }

  /** The session invariant: every pending entry aims at a field of a
      registered record, registered decorations sit at distinct addresses,
      and their biome sets name registered biomes. */
  predicate Valid(s: Mapgen.Session) {
    && (forall i :: 0 <= i < |s.pending| ==> SlotValid(s, s.pending[i].SlotOf()))
    && (forall i, j :: 0 <= i < j < |s.decos| ==> s.decos[i].addr != s.decos[j].addr)
    && (forall i, b :: 0 <= i < |s.decos| && b in s.decos[i].biomes ==> b < |s.biomes|)
  }

  /** Registered objects stay registered when the registry grows at its end. */
  lemma AddrsGrow(ds: seq<Decoration>, es: seq<Decoration>)
    requires |ds| <= |es| && es[..|ds|] == ds
    ensures Addrs(ds) <= Addrs(es)
  {
    forall a | a in Addrs(ds)
      ensures a in Addrs(es)
    {
      var i :| 0 <= i < |ds| && ds[i].addr == a;
      assert es[i] == ds[i];
    }
  }

  /** Growing the registries keeps slots valid. */
  lemma SlotValidMonotone(s: Mapgen.Session, t: Mapgen.Session, slot: Slot)
    requires SlotValid(s, slot)
    requires |s.biomes| <= |t.biomes| && |s.ores| <= |t.ores|
    requires |s.decos| <= |t.decos| && t.decos[..|s.decos|] == s.decos
    ensures SlotValid(t, slot)
  {
    AddrsGrow(s.decos, t.decos);
  }

  lemma RegisterBiomePreservesValid(s: Mapgen.Session, d: BiomeDesc, admit: bool)
    requires Valid(s)
    ensures Valid(RegisterBiome(s, d, admit).s)
  {
    var r := RegisterBiome(s, d, admit);
    if r.id.Some? {
      var t := r.s;
      var extra := BiomeResolutions(d, r.id.value);
      forall i | 0 <= i < |t.pending|
        ensures SlotValid(t, t.pending[i].SlotOf())
      {
        if i < |s.pending| {
          assert t.pending[i] == s.pending[i];
          SlotValidMonotone(s, t, s.pending[i].SlotOf());
        } else {
          assert t.pending[i] == extra[i - |s.pending|];
        }
      }
    }
  }

  lemma RegisterOrePreservesValid(s: Mapgen.Session, d: OreDesc, created: bool, admit: bool)
    requires Valid(s)
    ensures Valid(RegisterOre(s, d, created, admit).s)
  {
    var r := RegisterOre(s, d, created, admit);
    if r.id.Some? {
      var t := r.s;
      var extra := OreResolutions(d, r.id.value);
      forall i | 0 <= i < |t.pending|
        ensures SlotValid(t, t.pending[i].SlotOf())
      {
        if i < |s.pending| {
          assert t.pending[i] == s.pending[i];
          SlotValidMonotone(s, t, s.pending[i].SlotOf());
        } else {
          assert t.pending[i] == extra[i - |s.pending|];
        }
      }
    }
  }

  /** With resolutions deferred until `add` succeeded, and an object
      address that no registered decoration holds (as `create` guarantees),
      every queued entry keeps aiming at a registered record. */
  lemma RegisterDecorationPreservesValid(s: Mapgen.Session, d: DecoDesc, obj: Option<nat>,
                                         admit: bool, load: SchemLoader)
    requires Valid(s)
    requires obj.Some? ==> obj.value !in Addrs(s.decos)
    ensures Valid(RegisterDecorationDeferred(s, d, obj, admit, load).s)
  {
    var r := RegisterDecorationDeferred(s, d, obj, admit, load);
    if r.id.Some? {
      var t := r.s;
      var w := RegisterDecoration(s, d, obj, admit, load);
      assert w.id.Some?;
      var deco := t.decos[|s.decos|];
      assert t.decos == s.decos + [deco];
      assert deco.addr == obj.value;
      assert t.decos[..|s.decos|] == s.decos;
      assert deco.addr in Addrs(t.decos);
      forall i | 0 <= i < |t.pending|
        ensures SlotValid(t, t.pending[i].SlotOf())
      {
        if i < |s.pending| {
          assert t.pending[i] == s.pending[i];
          SlotValidMonotone(s, t, s.pending[i].SlotOf());
        }
      }
      forall i, j | 0 <= i < j < |t.decos|
        ensures t.decos[i].addr != t.decos[j].addr
      {
        assert t.decos[i] == s.decos[i];
        if j < |s.decos| {
          assert t.decos[j] == s.decos[j];
        } else {
          assert s.decos[i].addr in Addrs(s.decos);
        }
      }
      forall i, b | 0 <= i < |t.decos| && b in t.decos[i].biomes
        ensures b < |t.biomes|
      {
        if i < |s.decos| { assert t.decos[i] == s.decos[i]; }
      }
    }
  }

  /** Every entry point preserves the session invariant. */
  lemma StepPreservesValid(s: Mapgen.Session, c: Call)
    requires Valid(s)
    ensures Valid(Step(s, c).s)
  {
    match c
    case BiomeCall(d, a) => RegisterBiomePreservesValid(s, d, a);
    case OreCall(d, created, a) => RegisterOrePreservesValid(s, d, created, a);
    case DecoCall(d, created, hint, a, load) =>
      RegisterDecorationPreservesValid(s, d, DecoObject(s, created, hint), a, load);
    case ParamsCall(arg) =>
    case NotifyCall(f) =>
  }

  /** The state after a sequence of calls. */
  function Run(s: Mapgen.Session, calls: seq<Call>): Mapgen.Session
    decreases |calls|
  {
    if |calls| == 0 then s else Run(Step(s, calls[0]).s, calls[1..])
  }

  /** A registry only ever grows at its end: what was registered keeps its
      id and its contents. */
  predicate AppendOnly(s: Mapgen.Session, t: Mapgen.Session) {
    && |s.biomes| <= |t.biomes| && t.biomes[..|s.biomes|] == s.biomes
    && |s.ores| <= |t.ores| && t.ores[..|s.ores|] == s.ores
    && |s.decos| <= |t.decos| && t.decos[..|s.decos|] == s.decos
    && |s.pending| <= |t.pending| && t.pending[..|s.pending|] == s.pending
  }

  lemma StepAppendOnly(s: Mapgen.Session, c: Call)
    ensures AppendOnly(s, Step(s, c).s)
  {
  }

  /** Over any sequence of calls from a valid state the invariant holds and
      every registry and the queue only grow at the end: no id is ever
      reused or renumbered and no pending entry disappears. */
  lemma {:induction false} RunPreservesValid(s: Mapgen.Session, calls: seq<Call>)
    requires Valid(s)
    ensures Valid(Run(s, calls))
    ensures AppendOnly(s, Run(s, calls))
    decreases |calls|
  {
    if |calls| > 0 {
      var s1 := Step(s, calls[0]).s;
      StepPreservesValid(s, calls[0]);
      StepAppendOnly(s, calls[0]);
      RunPreservesValid(s1, calls[1..]);
      var t := Run(s1, calls[1..]);
      assert t.biomes[..|s.biomes|] == t.biomes[..|s1.biomes|][..|s.biomes|];
      assert t.ores[..|s.ores|] == t.ores[..|s1.ores|][..|s.ores|];
      assert t.decos[..|s.decos|] == t.decos[..|s1.decos|][..|s.decos|];
      assert t.pending[..|s.pending|] == t.pending[..|s1.pending|][..|s.pending|];
    }
  }

  /** The id a successful registration returns is the first one not yet
      used: the registry's size before the call. A call that returns no id
      keeps all three registries as they were, so the next id is unchanged. */
  lemma StepIdIsNext(s: Mapgen.Session, c: Call)
    ensures Step(s, c).id.Some? ==>
      (c.BiomeCall? && Step(s, c).id.value == |s.biomes| && |Step(s, c).s.biomes| == |s.biomes| + 1) ||
      (c.OreCall? && Step(s, c).id.value == |s.ores| && |Step(s, c).s.ores| == |s.ores| + 1) ||
      (c.DecoCall? && Step(s, c).id.value == |s.decos| && |Step(s, c).s.decos| == |s.decos| + 1)
    ensures Step(s, c).id.None? ==>
      Step(s, c).s.biomes == s.biomes && Step(s, c).s.ores == s.ores && Step(s, c).s.decos == s.decos
  {
  }

  /** The as-written decoration registration keeps the same shape as `Step`:
      it only appends, and an accepted decoration gets the next index. What it
      breaks is `Valid`, not the order of the registries. */
  lemma AsWrittenDecorationAppendOnly(s: Mapgen.Session, d: DecoDesc, obj: Option<nat>, admit: bool, load: SchemLoader)
    ensures AppendOnly(s, Mapgen.RegisterDecoration(s, d, obj, admit, load).s)
    ensures Mapgen.RegisterDecoration(s, d, obj, admit, load).id.Some? ==>
      Mapgen.RegisterDecoration(s, d, obj, admit, load).id.value == |s.decos|
  {
  }

  /** As written, a decoration object that passed the type and sidelen
      checks but is then rejected leaves its `place_on` entries queued,
      aimed at an object that is deleted and registered nowhere: the
      session invariant breaks as soon as there is one such name. */
  lemma RejectedDecorationLeavesOrphans(s: Mapgen.Session, d: DecoDesc, obj: nat, admit: bool, load: SchemLoader)
    requires obj !in Addrs(s.decos)
    requires DecoTypeOf(d).Some? && d.sidelen.GetOr(8) > 0
    requires RegisterDecoration(s, d, Some(obj), admit, load).id.None?
    ensures var t := RegisterDecoration(s, d, Some(obj), admit, load).s;
      && t.decos == s.decos
      && |s.pending| + |d.placeOn| <= |t.pending|
      && t.pending[|s.pending|..|s.pending| + |d.placeOn|] == ListEntries(d.placeOn, Slot(DecoObj(obj), CPlaceOn))
      && (|d.placeOn| > 0 ==> !Valid(t))
  {
    var t := RegisterDecoration(s, d, Some(obj), admit, load).s;
    var placeOn := ListEntries(d.placeOn, Slot(DecoObj(obj), CPlaceOn));
    assert t.pending == s.pending + DecoEntries(d, DecoTypeOf(d).value, obj);
    assert t.pending[|s.pending|..|s.pending| + |placeOn|] == placeOn;
    if |d.placeOn| > 0 {
      assert t.pending[|s.pending|] == placeOn[0];
      assert !SlotValid(t, t.pending[|s.pending|].SlotOf());
    }
  }

  /** As written, a rejected decoration's orphaned entry lands in the next
      decoration `create` places at the freed address: a simple decoration
      with height 0 and `place_on = {"default:dirt"}` is deleted, the next
      one (a rose with no `place_on`) reuses address 0 and is registered,
      and the queue now adds "default:dirt" to the rose's `place_on` list.
      Deferring the resolutions leaves the rose's queue with its own entry
      only. */
  lemma OrphanLandsInLaterDecoration(params: MapgenParams, notify: bv32, load: SchemLoader)
    ensures var s0 := Mapgen.Session([], [], [], [], params, notify);
      var d1 := DecoDesc(Some("simple"), None, None, None, ["default:dirt"], None, [], Some(0), None, None,
                         ["default:grass"], [], None, None, None, None);
      var d2 := DecoDesc(Some("simple"), Some("rose"), None, None, [], None, [], None, None, None,
                         ["flowers:rose"], [], None, None, None, None);
      var o1 := RegisterDecoration(s0, d1, Some(0), true, load);
      var o2 := RegisterDecoration(o1.s, d2, Some(Alloc(o1.s.decos, 0)), true, load);
      var f1 := RegisterDecorationDeferred(s0, d1, Some(0), true, load);
      var f2 := RegisterDecorationDeferred(f1.s, d2, Some(Alloc(f1.s.decos, 0)), true, load);
      && o1.id.None? && Alloc(o1.s.decos, 0) == 0
      && o2.id == Some(0) && o2.s.decos[0].addr == 0 && d2.placeOn == []
      && o2.s.pending == [ListEntry("default:dirt", Slot(DecoObj(0), CPlaceOn)),
                          ListEntry("flowers:rose", Slot(DecoObj(0), CDecos))]
      && f1 == Outcome(s0, None)
      && f2.id == Some(0)
      && f2.s.pending == [ListEntry("flowers:rose", Slot(DecoObj(0), CDecos))]
  {
    var s0 := Mapgen.Session([], [], [], [], params, notify);
    var d1 := DecoDesc(Some("simple"), None, None, None, ["default:dirt"], None, [], Some(0), None, None,
                       ["default:grass"], [], None, None, None, None);
    var d2 := DecoDesc(Some("simple"), Some("rose"), None, None, [], None, [], None, None, None,
                       ["flowers:rose"], [], None, None, None, None);
    assert DecoTypeOf(d1) == Some(DecoSimple) && DecoTypeOf(d2) == Some(DecoSimple);
    assert !SimpleValid(d1) && SimpleValid(d2);
    var o1 := RegisterDecoration(s0, d1, Some(0), true, load);
    assert o1.s.pending == [] + DecoEntries(d1, DecoSimple, 0);
    assert DecoEntries(d1, DecoSimple, 0) == [ListEntry("default:dirt", Slot(DecoObj(0), CPlaceOn))];
    assert o1.s.decos == [];
    var o2 := RegisterDecoration(o1.s, d2, Some(0), true, load);
    assert DecoEntries(d2, DecoSimple, 0) == [ListEntry("flowers:rose", Slot(DecoObj(0), CDecos))];
    assert o2.s.pending == o1.s.pending + DecoEntries(d2, DecoSimple, 0);
  }

  /** A biome with heights 5 and 50 whose top node "grass" may not exist:
      registration queues "grass" with the fallback "mapgen_dirt_with_grass"
      for the top slot, so a missing "grass" degrades to the fallback
      rather than failing. */
  lemma GrassBiomeScenario(s: Mapgen.Session)
    requires |s.biomes| < INVALID_ID
    ensures var d := BiomeDesc(None, Some("grassland"), None, None, Some(5), Some(50), None, None,
                               Some("grass"), None, None, None, None);
      var r := RegisterBiome(s, d, true);
      && r.id == Some(|s.biomes|)
      && r.s.biomes[|s.biomes|].heightMin == 5 && r.s.biomes[|s.biomes|].heightMax == 50
      && r.s.biomes[|s.biomes|].depthTop == 1 && r.s.biomes[|s.biomes|].depthFiller == 3
      && r.s.pending[|s.pending|] == NodeEntry("grass", "mapgen_dirt_with_grass", CONTENT_AIR, Slot(BiomeRec(|s.biomes|), CTop))
      && r.s.pending[|s.pending| + 3] == NodeEntry("", "air", CONTENT_IGNORE, Slot(BiomeRec(|s.biomes|), CDust))
  {
    var d := BiomeDesc(None, Some("grassland"), None, None, Some(5), Some(50), None, None,
                       Some("grass"), None, None, None, None);
    var r := RegisterBiome(s, d, true);
    assert r.s.pending[|s.pending|] == BiomeResolutions(d, |s.biomes|)[0];
    assert r.s.pending[|s.pending| + 3] == BiomeResolutions(d, |s.biomes|)[3];
  }

  /** An ore table that gives neither scarcity nor ore count passes
      validation with the defaults 1 and 1; one that gives a scarcity of 0
      is rejected without touching the session. */
  lemma OreDefaultsPass(s: Mapgen.Session, d: OreDesc)
    requires |s.ores| < INVALID_ID
    ensures d.clustScarcity.None? && d.clustNumOres.None? ==> RegisterOre(s, d, true, true).id == Some(|s.ores|)
    ensures d.clustScarcity == Some(0) ==> RegisterOre(s, d, true, true) == Outcome(s, None)
  {
  }
}

=== FILE: registry.dfy ===
/** The feature registries (biome, ore and decoration managers) seen from
    the registration layer: append-only sequences whose position is the
    record's id, an `add` that may refuse a record, and name lookup. */
module Registry {
  import opened Common

  /** `(u32)-1`, the id `add` returns when it refuses a record. */
  const INVALID_ID: nat := 0xFFFF_FFFF

  /** A registry of records; the record with id `i` is `reg[i]`. */
  type Reg<T> = seq<T>

  /** The result of `add`: the registry afterwards and the returned id. */
  datatype Added<T> = Added(reg: Reg<T>, id: nat)

  /** `add`. The manager's own acceptance decision (duplicate or invalid
      records, whatever its internals check) is the opaque verdict `admit`;
      independently of it no record is added once the 32-bit id space is
      used up to the sentinel. A refused record is not stored and consumes
      no id. */
  function Add<T>(reg: Reg<T>, rec: T, admit: bool): (r: Added<T>)
    ensures r.id == INVALID_ID <==> !(admit && |reg| < INVALID_ID)
    ensures r.id == INVALID_ID ==> r.reg == reg
    ensures r.id != INVALID_ID ==>
      && r.id == |reg|
      && |r.reg| == |reg| + 1
      && r.reg[r.id] == rec
      && r.reg[..|reg|] == reg
  {
    if admit && |reg| < INVALID_ID then Added(reg + [rec], |reg|)
    else Added(reg, INVALID_ID)
  }

  /** Two successive successful adds return strictly increasing ids, and
      a refused add in between does not move the next id. */
  lemma AddIdsIncrease<T>(reg: Reg<T>, a: T, b: T, admitA: bool, admitB: bool)
    requires Add(reg, a, admitA).id != INVALID_ID
    requires Add(Add(reg, a, admitA).reg, b, admitB).id != INVALID_ID
    ensures Add(reg, a, admitA).id < Add(Add(reg, a, admitA).reg, b, admitB).id
  {
  }

  /** A refused add leaves the id the next add returns unchanged. */
  lemma RefusedAddConsumesNoId<T>(reg: Reg<T>, a: T, b: T, admitB: bool)
    requires Add(reg, a, false).id == INVALID_ID
    ensures Add(Add(reg, a, false).reg, b, admitB) == Add(reg, b, admitB)
  {
  }

  /** `getByName`: the id of the first record whose name is `name`. */
  function FindByName<T>(reg: Reg<T>, nameOf: T -> string, name: string): (r: Option<nat>)
    ensures r.Some? ==> r.value < |reg| && nameOf(reg[r.value]) == name
    ensures r.Some? ==> forall j :: 0 <= j < r.value ==> nameOf(reg[j]) != name
    ensures r.None? <==> forall j :: 0 <= j < |reg| ==> nameOf(reg[j]) != name
    decreases |reg|
  {
    if |reg| == 0 then None
    else
      match FindByName(reg[..|reg| - 1], nameOf, name)
      case Some(i) => Some(i)
      case None => if nameOf(reg[|reg| - 1]) == name then Some(|reg| - 1) else None
  }
}

=== FILE: replacements.dfy ===
/** Normalisation of a schematic replacement list into one name-to-name
    map (`read_schematic_replacements`). */
module Replacements {

  /** One key/value pair of the script's replacement table, in the order the
      table iteration visits them. The old format stores `{"x", "y"}` pairs
      as values; the new format maps the key `x` to the value `"y"`. */
  datatype ReplEntry = OldPair(first: string, second: string) | NewKey(key: string, value: string) {
    /** The name to replace. */
    function From(): string {
      match this
      case OldPair(x, _) => x
      case NewKey(x, _) => x
    }
    /** The name it is replaced by. */
    function To(): string {
      match this
      case OldPair(_, y) => y
      case NewKey(_, y) => y
    }
  }

  /** `v` is what the last entry naming `k` maps it to. */
  ghost predicate LastAssignment(es: seq<ReplEntry>, k: string, v: string) {
    exists i :: 0 <= i < |es| && es[i].From() == k && es[i].To() == v &&
      forall j :: i < j < |es| ==> es[j].From() != k
  }

  /** `m` is the normal form of `es`: its keys are exactly the named
      sources, and each maps to the target of the last entry naming it. */
  ghost predicate IsNormalForm(es: seq<ReplEntry>, m: map<string, string>) {
    && (forall k :: k in m <==> exists i :: 0 <= i < |es| && es[i].From() == k)
    && (forall k :: k in m ==> LastAssignment(es, k, m[k]))
  }

  /** The replacement map: every named source appears, and each maps to the
      target of the last entry naming it (later entries overwrite earlier
      ones, as `replace_names[from] = to` does). */
  function Normalize(es: seq<ReplEntry>): (m: map<string, string>)
    ensures IsNormalForm(es, m)
    decreases |es|
  {
    if |es| == 0 then map[]
    else
      var prev := Normalize(es[..|es| - 1]);
      NormalizeStep(es, prev);
      prev[es[|es| - 1].From() := es[|es| - 1].To()]
  }

  /** One more entry: overwriting its source in the normal form of the
      prefix gives the normal form of the whole list. */
  lemma NormalizeStep(es: seq<ReplEntry>, prev: map<string, string>)
    requires |es| > 0
    requires IsNormalForm(es[..|es| - 1], prev)
    ensures IsNormalForm(es, prev[es[|es| - 1].From() := es[|es| - 1].To()])
  {
    var init := es[..|es| - 1];
    var last := es[|es| - 1];
    var m := prev[last.From() := last.To()];
    assert forall i :: 0 <= i < |init| ==> init[i] == es[i];
    forall k | k in m
      ensures LastAssignment(es, k, m[k])
    {
      if k == last.From() {
        assert es[|es| - 1].From() == k;
      } else {
        assert LastAssignment(init, k, prev[k]);
        var i :| 0 <= i < |init| && init[i].From() == k && init[i].To() == prev[k] &&
          forall j :: i < j < |init| ==> init[j].From() != k;
        assert es[i].From() == k && es[i].To() == m[k];
      }
    }
    forall k | exists i :: 0 <= i < |es| && es[i].From() == k
      ensures k in m
    {
      var i :| 0 <= i < |es| && es[i].From() == k;
      if i < |init| {
        assert init[i].From() == k;
      }
    }
  }

  /** The old pair format and the new key format normalise to the same map
      for the same sequence of (from, to) pairs. */
  lemma {:induction false} FormatsAgree(es: seq<ReplEntry>, fs: seq<ReplEntry>)
    requires |es| == |fs|
    requires forall i :: 0 <= i < |es| ==> es[i].From() == fs[i].From() && es[i].To() == fs[i].To()
    ensures Normalize(es) == Normalize(fs)
    decreases |es|
  {
    if |es| > 0 {
      FormatsAgree(es[..|es| - 1], fs[..|fs| - 1]);
    }
  }

  /** Appending entries that rename sources already mapped to the same
      targets leaves the map unchanged. */
  lemma {:induction false} NormalizeStable(es: seq<ReplEntry>, e: ReplEntry)
    requires e.From() in Normalize(es) && Normalize(es)[e.From()] == e.To()
    ensures Normalize(es + [e]) == Normalize(es)
  {
    assert (es + [e])[..|es|] == es;
  }
}

=== FILE: resolver.dfy ===
/** The enqueue side of the deferred node resolver: registration code
    records which node name should later be written into which content-id
    slot of which record. The flush that consumes the queue is not part of
    this model. */
module Resolver {
  import opened Common

  /** The record a slot belongs to. Biomes and ores enqueue after `add`, so
      their slots are named by registry id; decorations enqueue before
      `add`, so their slots are named by the address of the decoration
      object created for the call. Addresses of deleted objects can be
      handed out again by a later `create`. */
  datatype Owner = BiomeRec(id: nat) | OreRec(id: nat) | DecoObj(addr: nat)

  /** The content-id fields of the records that receive resolutions. */
  datatype Field =
    | CTop | CFiller | CWater | CDust | CDustWater   // Biome
    | CWherein | COre                               // Ore
    | CPlaceOn | CDecos | CSpawnBy                  // Decoration

  datatype Slot = Slot(owner: Owner, field: Field)

  /** The fields each kind of record owns. */
  predicate FieldOf(o: Owner, f: Field) {
    match o
    case BiomeRec(_) => f in {CTop, CFiller, CWater, CDust, CDustWater}
    case OreRec(_) => f in {CWherein, COre}
    case DecoObj(_) => f in {CPlaceOn, CDecos, CSpawnBy}
  }

  /** A slot whose field belongs to its owner's kind of record. */
  predicate WellTyped(slot: Slot) {
    FieldOf(slot.owner, slot.field)
  }

  /** A pending resolution: `addNode` writes one content id into a scalar
      slot, trying `name`, then `fallback`, then using `dflt`; `addNodeList`
      appends the id of `name` to a list slot. */
  datatype Pending =
    | NodeEntry(name: string, fallback: string, dflt: ContentId, slot: Slot)
    | ListEntry(name: string, slot: Slot)
  {
    function SlotOf(): Slot {
      match this
      case NodeEntry(_, _, _, s) => s
      case ListEntry(_, s) => s
    }
  }

  type Queue = seq<Pending>

  /** `addNode`: one scalar entry at the end of the queue. */
  function AddNode(q: Queue, name: string, fallback: string, dflt: ContentId, slot: Slot): (r: Queue)
    ensures |r| == |q| + 1 && r[..|q|] == q
    ensures r[|q|].NodeEntry? && r[|q|].name == name && r[|q|].fallback == fallback
    ensures r[|q|].dflt == dflt && r[|q|].slot == slot
  {
    q + [NodeEntry(name, fallback, dflt, slot)]
  }

  /** The list entries a loop of `addNodeList` calls over `names` produces,
      stated position by position. */
  function ListEntries(names: seq<string>, slot: Slot): (r: Queue)
    ensures |r| == |names|
    ensures forall i :: 0 <= i < |r| ==> r[i].SlotOf() == slot
  {
    seq(|names|, i requires 0 <= i < |names| => ListEntry(names[i], slot))
  }

  /** `for each name: addNodeList(name, slot)` — one list entry per name, in
      input order, after the existing queue. */
  function AddNodeLists(q: Queue, names: seq<string>, slot: Slot): (r: Queue)
    ensures r == q + ListEntries(names, slot)
    decreases |names|
  {
    if |names| == 0 then q
    else
      var r := AddNodeLists(q, names[..|names| - 1], slot) + [ListEntry(names[|names| - 1], slot)];
      assert ListEntries(names, slot) == ListEntries(names[..|names| - 1], slot) + [ListEntry(names[|names| - 1], slot)];
      r
  }
}
